=== FILE: README.md ===
# aikumpel decision core in Dafny

aikumpel is a small Next.js site. A user describes their job and the site
asks a hosted language model for AI use cases, shown as category cards.
Beneath the UI sits a little decision logic. This project models that
logic and proves what it does:

- **The server relay** (`pages/api/replicate.ts`). It routes a POST to
  the prediction-creation endpoint or to the status endpoint, using the
  secret key from the environment. It answers 405, 500 or 400 itself
  when the request is unusable, and otherwise passes the upstream answer
  through (module `ReplicateProxy`; `ClientProxy` routes the two bodies
  the pages send).
- **The request loop of App.tsx** (`callReplicateAPI`). It submits a job,
  polls while the job is `starting` or `processing` for at most 120
  checks, and classifies the final snapshot into the output or a named
  failure (module `AppClient`). The loop is a Dafny `method` with a
  `while` loop, proved against the recursive specification `Poll`.
- **The output cleanup of App.tsx** (module `AppOutput`). It strips code
  fences, applies the leading-text expression, cuts the text after the
  last closing bracket, trims, and takes the bracket span. Each regular
  expression is one function.
- **The page state of App.tsx** (module `AppView`):
  - the error-to-banner classification;
  - the colour and icon tables;
  - the transform of parsed categories into cards;
  - `generateAIRecommendations`;
  - "generate more", with its append and its fallback card;
  - `handleSearch`.
- **The simpler page `pages/index.tsx`** (module `IndexPage`). Its own
  request loop collapses every failure to one error, which is proved to
  agree with App.tsx's loop once App's failure detail is dropped. It
  also has a fixed fallback category, its transform and its search
  handler.
- **Shared parts:**
  - the JavaScript values the code inspects (`Json`: truthiness,
    property reads that throw on `null`/`undefined`, `String()`);
  - the prediction snapshot, the raw output and its coercion to text
    (`Prediction`);
  - ECMAScript `trim` and `includes` (`Text`);
  - `Option`/`Result` (`Base`).
- **An end-to-end scenario on both pages** (module `Scenario`): two
  checks, then a bare JSON object that becomes one "Marketing" card.

The network becomes inputs:

- The submission's reply is a `Reply`: a response, an abort, or a thrown
  error with its message.
- There is one `Reply` per possible status check. Check `k` receives
  `events[k]`.
- `JSON.parse` is a parameter `parse: string -> Result<Js, string>`. Its
  `Err` carries the SyntaxError's message.
- `Date.now()` is a parameter `now`.
- The environment is a map.

Everything verifies with `dafny verify --resource-limit 2000000 *.dfy`,
run from this directory.

When parsing fails, App.tsx keeps the *cleaned* text as `rawApiOutput`,
not the model's original output (App.tsx:284 and 294), and the model
does the same.

## Model

| member | source | states |
|---|---|---|
| Text.Trim | App.tsx:284 | the result is the slice of the input after its leading white space; everything dropped at either end is ECMAScript white space; the result starts and ends with non-white space; a non-white last character is kept |
| Text.TrimEmptyIff | pages/index.tsx:126 | `s.trim()` is empty exactly when every character of `s` is white space |
| Text.TrimKeepsTrimmed | App.tsx:284 | text with no white space at either end is its own trim |
| Text.IntToString | App.tsx:182 | `String(n)` of an integer has a minus sign exactly when `n` is negative, then digits with no leading zero except in "0", and the numeral denotes `n` |
| Text.IntToStringInjective | App.tsx:182 | distinct codes give distinct numerals, so `CREATE_ERROR_<code>` tells the codes apart |
| Text.ToLower | App.tsx:428 | `toLowerCase` keeps the length, leaves no capital, keeps every character that is not a capital in place, and replaces every capital by a lower-case letter that maps back to it |
| Text.ToLowerIdempotent | App.tsx:428 | lower-casing twice is lower-casing once |
| Json.Get | pages/api/replicate.ts:16 | a property read fails exactly on `null`/`undefined`; an object's own key gives its value; any other read gives `undefined` |
| Json.Or | App.tsx:319 | `a \|\| b` is one of its operands, truthy exactly when either operand is, `a` whenever `a` is truthy and `b` otherwise |
| Prediction.Coerce | App.tsx:270-281 | a string is kept; an array is joined with ''; an object gives its truthy `content`, then its truthy `text`; no text exactly for other values and for objects with neither field |
| Prediction.ChunksJoinedInOrder | App.tsx:272-273 | around every chunk of an array output the joined text is the join of the chunks before it, then the chunk, then the join of those after it |
| Prediction.ExamplesOrEmpty | App.tsx:319 | `examples \|\| []` is always truthy, keeps truthy examples and defaults the rest to `[]` |
| Prediction.ListedApps | App.tsx:312-320 | one card per application, in order, with the title, description, prompt, category and `name-index-now` id of its source and examples `examples \|\| []`; fails exactly when an application is `null` |
| ReplicateProxy.ApiKey | pages/api/replicate.ts:11 | `REPLICATE_API_KEY` wins when set, else `REPLICATE_API_TOKEN`; no key exactly when both are unset |
| ReplicateProxy.Dispatch | pages/api/replicate.ts:4-40 | a request is forwarded only for POST with a key and a body; it is either the creation request with the body unchanged or the status request for the body's `id`, with `Authorization: Token <key>`; POST carries the body; every other answer is 405, 500 or 400 |
| ReplicateProxy.Finish | pages/api/replicate.ts:26-43 | a direct answer is kept; an upstream answer is passed through; a thrown error is 500 |
| ReplicateProxy.NonPostRejected | pages/api/replicate.ts:4-7 | any verb but POST gets 405 and nothing is forwarded |
| ReplicateProxy.MissingKeyRejected | pages/api/replicate.ts:11-15 | with neither variable set the answer is 500 with the key message, before any upstream call |
| ReplicateProxy.CreationForwarded | pages/api/replicate.ts:16-25 | truthy `version` and `input` forward the body unchanged to the creation endpoint, whatever the `id` |
| ReplicateProxy.StatusForwarded | pages/api/replicate.ts:28-35 | otherwise a truthy `id` becomes a GET of the status endpoint for that id |
| ReplicateProxy.ShapelessBodyRejected | pages/api/replicate.ts:38-40 | a body of neither shape gets 400 with `{error}` |
| ReplicateProxy.NullishBodyFails | pages/api/replicate.ts:41-43 | a missing body makes the first read throw: 500, nothing forwarded |
| ReplicateProxy.UpstreamPassedThrough | pages/api/replicate.ts:26-43 | upstream status and JSON come back unchanged; a thrown upstream error becomes 500 with `{error, details}` |
| ClientProxy.CreationBodyForwarded | App.tsx:152-157 | the page's submission body is forwarded unchanged to the creation endpoint |
| ClientProxy.StatusBodyForwarded | App.tsx:208 | a status check for id `i` becomes a GET of `.../predictions/i` |
| ClientProxy.MissingIdRejected | pages/api/replicate.ts:28-40 | a status check for a submission without an id gets 400 |
| AppClient.CreateFailure | App.tsx:173-183 | codes other than 401, 402, 429 and 422 give `CREATE_ERROR_<code>` |
| AppClient.Settle | App.tsx:228-245 | the output is returned exactly when the status is `succeeded` and the output is truthy, and it is returned unchanged |
| AppClient.Poll | App.tsx:190-225 | the loop makes between `attempts` and 120 checks, and makes none exactly when the snapshot is not in flight or the ceiling is reached |
| AppClient.Call | App.tsx:140-252 | at most 120 checks; any check at all needs a 2xx submission whose snapshot is in flight |
| AppClient.FailedSubmissionMakesNoCheck | App.tsx:246-251 | a submission aborted by the 30-second controller fails with `REQUEST_TIMEOUT` after zero checks; any other thrown error is rethrown unchanged after zero checks |
| AppClient.CallReplicate | App.tsx:138-253 | the loop ends with the result and check count of `Call`; it posts the submission body first and then one status body per check, each for the id the submission returned |
| AppClient.RejectedSubmission | App.tsx:164-184 | a non-2xx submission fails after zero checks; 401, 402, 429 and 422 give their named failures |
| AppClient.SettledSubmission | App.tsx:194 | a submission that is not in flight is settled without any check |
| AppClient.PollStopsAtFirstSettlingCheck | App.tsx:212-224 | the first check that is not a 2xx in-flight snapshot decides the result: its settlement, `STATUS_ERROR_<code>`, `STATUS_TIMEOUT` or its thrown error, after exactly that many checks |
| AppClient.PollTimesOut | App.tsx:190-238 | a job in flight through every check ends `PREDICTION_TIMEOUT` after exactly 120 checks |
| AppClient.SucceedsAfterChecks | App.tsx:194-245 | a job still in flight for `k` checks that then succeeds with truthy output returns that output after `k + 1` checks |
| AppClient.SettleNamesEachStatus | App.tsx:228-242 | `failed` and `canceled` keep their own failures; `PREDICTION_TIMEOUT` exactly for every other status but `succeeded`; `NO_OUTPUT` exactly for a falsy success |
| AppClient.AbortedCheckIsStatusTimeout | App.tsx:217-251 | an aborted status check ends as `STATUS_TIMEOUT`, never as `REQUEST_TIMEOUT` |
| AppOutput.StripFences | App.tsx:284 | removing fences never lengthens the text |
| AppOutput.StripFencesRemovesAll | App.tsx:284 | no run of three backticks survives, not even one formed across a removed fence |
| AppOutput.StripFencesKeepsPlainText | App.tsx:284 | text without backticks is unchanged |
| AppOutput.StripFencesThenFence | App.tsx:284 | a closing fence after text without backticks is removed and the text kept |
| AppOutput.StripFencesUnwrapsJson | App.tsx:284 | a ```` ```json ```` block around text without backticks comes out as that text |
| AppOutput.FencedObjectExtracted | App.tsx:284-289 | a JSON object in a ```` ```json ```` block on lines of its own reaches `JSON.parse` as the object alone |
| AppOutput.ProseBeforeObjectDropped | App.tsx:284-289 | prose without `{` before a one-line JSON object is dropped, so the cleaned text and the parsed text are the object alone |
| AppOutput.TrimLeadingProse | App.tsx:284 | without a capture position the text is unchanged; otherwise the result is the suffix from the largest capture position (no `{` before it, an opener at it, one line after it) |
| AppOutput.CutAfterLastCloser | App.tsx:284 | text without a closing bracket is unchanged; otherwise the result is the prefix that ends at the last closing bracket |
| AppOutput.Span | App.tsx:288-289 | without an opener before a closer the text is unchanged; otherwise the slice from the first opener to the last closer |
| AppOutput.WholeSpan | App.tsx:288-289 | text that starts with an opener and ends with a closer is its own match |
| AppOutput.CleanupShape | App.tsx:284 | the cleaned text holds no code fence, and ends with a closing bracket whenever it holds one |
| AppOutput.BareObjectPassesThrough | App.tsx:284-290 | a bare JSON object with no backtick reaches `JSON.parse` unchanged |
| AppOutput.PlainProseKept | App.tsx:284-289 | prose without backticks, brackets or surrounding white space passes every stage unchanged |
| AppOutput.RefusalKept | App.tsx:284 | the refusal "I cannot comply." survives the cleanup unchanged |
| AppOutput.MultiLineObjectKeepsProse | App.tsx:284-289 | before an object written over two lines the leading prose is not dropped, and only the final match isolates the object |
| AppView.ClassifyMessage | App.tsx:330-342 | never `json_parse`; `cors_blocked` exactly for `CONNECTION_FAILED` or a message containing `fetch` |
| AppView.ClassifyNamedFailures | App.tsx:330-339 | `INSUFFICIENT_CREDITS`, `INVALID_TOKEN`, `RATE_LIMITED` and `REQUEST_TIMEOUT` get `credits`, `token`, `rate_limit` and `timeout` |
| AppView.ClassifyOtherFailures | App.tsx:340-342 | `INVALID_INPUT`, `STATUS_TIMEOUT`, `PREDICTION_FAILED`, `PREDICTION_CANCELED` and a TypeError are `general` |
| AppView.ClassifyOutputFailures | App.tsx:340-342 | `PREDICTION_TIMEOUT`, `NO_OUTPUT` and `INVALID_OUTPUT_FORMAT` are `general` |
| AppView.ClassifyCodedFailures | App.tsx:340-342 | `CREATE_ERROR_<code>` and `STATUS_ERROR_<code>` are `general` for every code |
| AppView.NetworkFailureIsCorsBlocked | App.tsx:330-331 | the browser's "Failed to fetch" is `cors_blocked` |
| AppView.TablesFindListedEntries | App.tsx:105-135 | in each of the colour, bullet and icon tables a listed key finds its own entry and an unlisted key the default |
| AppView.BulletDefaultsExactly | App.tsx:105-135 | the bullet shade is the default exactly for unlisted names, for the two names whose colours the bullet table lacks, and for the two purple categories |
| AppView.IconsCoverColors | App.tsx:88-135 | every coloured category has its own icon; "Rozwój Osobisty" and "Technologia" have an icon but the grey default colour |
| AppView.CategoryOf | App.tsx:307-321 | a card exists exactly when the category is not nullish, its `applications` is an array and no application is `null`; it has the category's name, its colour and icon by name, `hasMore` false, and as applications the `ListedApps` of its `applications` |
| AppView.Transform | App.tsx:307-321 | one card per category, in order, or failure exactly when some category fails |
| AppView.TransformIgnoresClockButIds | App.tsx:313 | the same tree at two instants gives the same cards up to their ids |
| AppView.Interpret | App.tsx:285-321 | a SyntaxError gives `json_parse` with the cleaned text kept; a tree without a `categories` array gives `json_parse` with nothing kept; a `categories` array gives its transform as cards, or a TypeError when the transform fails |
| AppView.Recommendations | App.tsx:266-321 | a failed request keeps its failure; an output with no text is `INVALID_OUTPUT_FORMAT`; text is cleaned, matched, parsed and interpreted |
| AppView.Recommend | App.tsx:255-347 | loading ends and the search is recorded; cards replace the results and clear the banner; unparsed output clears the cards, shows `json_parse` and keeps its raw text; a failure shows its classified banner and keeps the cards and the raw output |
| AppView.FailedRequestKeepsResults | App.tsx:326-343 | a failed request shows its classified banner and keeps the previous cards and raw output |
| AppView.AbortedSubmissionShowsTimeout | App.tsx:338-339 | an aborted submission (`REQUEST_TIMEOUT`, App.tsx:248-249) shows the `timeout` banner and keeps the previous cards and raw output |
| AppView.TextlessOutputIsGeneral | App.tsx:279-281 | output with no text shows `general` and keeps the previous cards and raw output |
| AppView.UnparsableOutputShown | App.tsx:291-304 | output whose text does not parse gives `json_parse`, no cards, and the cleaned text as raw output |
| AppView.MisshapenOutputClearsRaw | App.tsx:297-304 | output whose parsed text has no `categories` array gives `json_parse`, no cards and no raw output |
| AppView.TreeBecomesCards | App.tsx:297-321 | the tree `{categories: cats}` becomes the transform of `cats` |
| AppView.ParsedOutputBecomesCards | App.tsx:297-324 | output whose text parses to a well-formed tree becomes one card per category and clears the banner |
| AppView.HandleSearch | App.tsx:466-471 | a query of white space only changes nothing; any other query runs the recommendation and hides the suggestions |
| AppView.GeneratedApps | App.tsx:396-405 | one generated card per application, in order, with `name-gen-now-index` ids, the category's name, examples `examples \|\| []` and `isGenerated`; fails exactly when an application is `null` |
| AppView.MockApp | App.tsx:421-438 | the fallback card is generated, in the named category, with five examples |
| AppView.AppendTo | App.tsx:407-413 | categories of that name get the cards appended; every other category is unchanged, and the count is kept |
| AppView.AppendCount | App.tsx:407-413 | the append adds exactly the new cards for each category of that name |
| AppView.MoreApps | App.tsx:379-405 | a failed request keeps its failure; text that does not parse gives its SyntaxError; there are new cards exactly when the tree's `applications` is an array without a `null`, and they are its generated cards; every other tree is a TypeError |
| AppView.GenerateMore | App.tsx:349-454 | the spinner is cleared; the only possible banner is `cors_blocked`; loading, search, raw output, suggestions and every other category are unchanged |
| AppView.AddMore | App.tsx:407-453 | the same, for a given request outcome |
| AppView.FailedGenerationAppendsFallback | App.tsx:421-450 | on any failure exactly the fallback card is appended to each category of that name, and the banner is shown exactly for a network failure |
| AppView.GeneratedAppsAppended | App.tsx:396-413 | on success the parsed cards are appended to each category of that name, and there is no banner |
| AppView.RejectedGenerationHasNoBanner | App.tsx:448-450 | a rejected submission during "generate more" never shows a banner |
| IndexPage.Final | pages/index.tsx:87-88 | the output is returned exactly for a `succeeded` snapshot with truthy output |
| IndexPage.Poll | pages/index.tsx:64-86 | between `attempts` and 120 checks, none exactly when the snapshot is not in flight or the ceiling is reached |
| IndexPage.Call | pages/index.tsx:48-92 | at most 120 checks, and any check needs a 2xx submission that is in flight |
| IndexPage.CallReplicate | pages/index.tsx:48-92 | the loop ends with the output and check count of `Call`; submission body first, then one status body per check for the returned id |
| IndexPage.PollCollapsesApp | pages/index.tsx:67-86 | this page's loop makes the same checks as App.tsx's and ends on the same output; every failure becomes the one error |
| IndexPage.CallCollapsesApp | pages/index.tsx:48-92 | the same for the whole request: every failure App.tsx names is `API_ERROR` here |
| IndexPage.CategoryOf | pages/index.tsx:139-149 | a card exists exactly when the category is not nullish, its `applications` is an array and no application is `null`; it keeps the name, and its applications are the `ListedApps` of its `applications`, the cards App.tsx builds too |
| IndexPage.Transform | pages/index.tsx:139-149 | one card per category, in order, or failure exactly when some category fails |
| IndexPage.TransformAgreesWithApp | pages/index.tsx:139-149 | this page accepts exactly the trees App.tsx accepts and builds the same names and applications |
| IndexPage.FallbackShape | pages/index.tsx:94-112 | the fallback is one category, "Automatyzacja Procesów", with one application of five examples, whatever the job description |
| IndexPage.OutputText | pages/index.tsx:120-126 | the coerced text when it is not blank; otherwise it fails (`INVALID_OUTPUT_FORMAT` or `EMPTY_OUTPUT`) |
| IndexPage.FromTree | pages/index.tsx:131-149 | a SyntaxError or a tree without a `categories` array gives no cards; a `categories` array gives exactly its transform |
| IndexPage.Generate | pages/index.tsx:119-149 | a failed request or blank text gives no cards; otherwise the brace span is parsed and transformed |
| IndexPage.Recommend | pages/index.tsx:114-156 | loading ends and the search is recorded; the cards are the generated ones, or the fallback |
| IndexPage.NoEmptyResultsOnFailure | pages/index.tsx:132-153 | the page is left without cards only by a well-formed tree with no categories |
| IndexPage.RequestFailureFallsBack | pages/index.tsx:151-153 | every request failure App.tsx would name gives the fallback here |
| IndexPage.BlankOutputFallsBack | pages/index.tsx:120-126 | output whose text is white space only, whatever its shape, gives the fallback |
| IndexPage.UnusableTreeFallsBack | pages/index.tsx:120-138 | for output of any shape with non-blank text, text `JSON.parse` rejects, or a tree without a `categories` array, gives the fallback |
| IndexPage.HandleSearch | pages/index.tsx:158-162 | only a query with something besides white space starts a recommendation, which receives the query as typed |
| Scenario.ScenarioRequest | App.tsx:186-245 | a job that is processing, then succeeds on the second check, returns its text after two checks |
| Scenario.ScenarioText | App.tsx:284-290 | a bare JSON object needs no cleaning and is parsed whole by either page |
| Scenario.AppScenario | App.tsx:255-324 | App.tsx ends with one "Marketing" card holding application "X" and no banner |
| Scenario.IndexScenario | pages/index.tsx:114-156 | pages/index.tsx ends with the same card instead of its fallback |

## Left out

- Rendering, animations, the banner markup and the card styling: presentation with no decisions in it.
- Timers:
  - the cursor and suggestion intervals;
  - the one-second sleep between checks;
  - the 30-second and 10-second abort timers. An abort is a `Reply` of its own, and time is the check count.
- `fetch`, the clipboard, `console` and `process.env`. The network is the sequence of replies, the environment is a map, and logging is dropped.
- `JSON.parse` is a parameter. Its SyntaxError wording is whatever the parameter returns.
- The wording of TypeErrors is not modelled. The model classifies a TypeError as `general`, which holds for any engine message that lacks "fetch".
- Numbers are integers. Floating-point values in the output or in ids are not modelled.
- The `content` and `text` fields of an object output are strings, with "" for absent. Non-string truthy values there are not modelled.
- A snapshot's missing or non-string `status` is any string other than the five names, and a missing `id` is "".
- The prompt texts and `maxTokens` are not modelled. Only the concatenation `system + "\n" + user` of the submission body is; `maxTokens` is never sent by either page.
- `Date.now()` is one reading per handler. App.tsx and pages/index.tsx read the clock once per card, so only the ids can differ; no claim of uniqueness is made.
- Inherited `Object.prototype` keys such as `constructor` are not modelled in the colour and icon lookups. For such names a lookup would find the inherited member.
- Text.ToLower: lower-cases ASCII and the nine Polish capitals only, not all of Unicode.
- The spinner flag and banner reset at the start of each handler are not modelled as separate states. Only the state after the handler finishes is.
- The leading-text expression is modelled literally. It drops leading prose only when everything after the chosen bracket is on one line, and before a leading `[` it may pick a later bracket.
- A 2xx reply whose body is `null` has no `Snapshot`: it is a `Raised` reply carrying the engine's TypeError message, since reading its `id` or `status` throws.
- Json.ReadErrorMessage gives V8's wording of the TypeError raised when the relay reads a missing body; other engines word it differently.

=== FILE: app_client.dfy ===
/** `callReplicateAPI` of App.tsx: submit a job through the relay, poll
    its status while it is in flight (at most `MaxAttempts` checks), then
    classify the last snapshot. The network is replaced by the replies it
    gives: one for the submission and one for each possible status check.
    The one-second sleep and the two abort timers become `Aborted`
    replies; wall-clock time becomes the attempt count. */
module AppClient {
  import opened Base
  import opened Text
  import opened Json
  import opened Prediction

  /** The errors thrown out of the request, each named by its message,
      and the ones thrown later while the output is turned into cards. */
  datatype Failure =
    | InvalidToken
    | InsufficientCredits
    | RateLimited
    | InvalidInput
    | CreateError(code: int)
    | StatusError(code: int)
    | StatusTimeout
    | RequestTimeout
    | PredictionFailed
    | PredictionCanceled
    | PredictionTimeout
    | NoOutput
    | Thrown(message: string)
    | InvalidOutputFormat
    | ParseFailure(reason: string)
    | TypeFailure

  /** The `message` of the Error each failure throws. A JSON SyntaxError
      carries the parser's own wording, given with the failure; the
      TypeError of reading a property of a malformed tree carries engine
      wording the model does not spell out. */
  function Message(f: Failure): Option<string> {
    match f
    case InvalidToken => Some("INVALID_TOKEN")
    case InsufficientCredits => Some("INSUFFICIENT_CREDITS")
    case RateLimited => Some("RATE_LIMITED")
    case InvalidInput => Some("INVALID_INPUT")
    case CreateError(code) => Some("CREATE_ERROR_" + IntToString(code))
    case StatusError(code) => Some("STATUS_ERROR_" + IntToString(code))
    case StatusTimeout => Some("STATUS_TIMEOUT")
    case RequestTimeout => Some("REQUEST_TIMEOUT")
    case PredictionFailed => Some("PREDICTION_FAILED")
    case PredictionCanceled => Some("PREDICTION_CANCELED")
    case PredictionTimeout => Some("PREDICTION_TIMEOUT")
    case NoOutput => Some("NO_OUTPUT")
    case Thrown(m) => Some(m)
    case InvalidOutputFormat => Some("INVALID_OUTPUT_FORMAT")
    case ParseFailure(reason) => Some(reason)
    case TypeFailure => None
  }

  /** The failure a rejected submission throws. */
  function CreateFailure(code: int): (f: Failure)
    ensures code !in {401, 402, 429, 422} ==> f == CreateError(code)
  {
    if code == 401 then InvalidToken
    else if code == 402 then InsufficientCredits
    else if code == 429 then RateLimited
    else if code == 422 then InvalidInput
    else CreateError(code)
  }

  /** The checks after the polling loop, in the order App.tsx makes them:
      failed, canceled, still not succeeded, then an empty output. */
  function Settle(s: Snapshot): (r: Result<Output, Failure>)
    ensures r.Ok? <==> s.status == "succeeded" && OutputTruthy(s.output)
    ensures r.Ok? ==> r.value == s.output
  {
    if s.status == "failed" then Err(PredictionFailed)
    else if s.status == "canceled" then Err(PredictionCanceled)
    else if s.status != "succeeded" then Err(PredictionTimeout)
    else if !OutputTruthy(s.output) then Err(NoOutput)
    else Ok(s.output)
  }

  /** How a request ends: the output or the failure, and the number of
      status checks made. */
  datatype Outcome = Outcome(result: Result<Output, Failure>, polls: nat)

  /** The poll loop from snapshot `snap` after `attempts` checks; check
      number k (counting from 0) receives `events[k]`. */
  function Poll(snap: Snapshot, events: seq<Reply>, attempts: nat): (r: Outcome)
    requires attempts <= MaxAttempts <= |events|
    ensures attempts <= r.polls <= MaxAttempts
    ensures r.polls == attempts <==> !InFlight(snap.status) || attempts == MaxAttempts
    decreases MaxAttempts - attempts
  {
    if !InFlight(snap.status) || attempts == MaxAttempts then
      Outcome(Settle(snap), attempts)
    else
      match events[attempts]
      case Reply(code, body) =>
        if IsOk(code) then Poll(body, events, attempts + 1)
        else Outcome(Err(StatusError(code)), attempts + 1)
      case Aborted => Outcome(Err(StatusTimeout), attempts + 1)
      case Raised(m) => Outcome(Err(Thrown(m)), attempts + 1)
  }

  /** The whole request: the submission's reply, then the poll loop. An
      abort of the submission is the outer handler's `REQUEST_TIMEOUT`. */
  function Call(create: Reply, events: seq<Reply>): (r: Outcome)
    requires MaxAttempts <= |events|
    ensures r.polls <= MaxAttempts
    ensures r.polls > 0 ==> create.Reply? && IsOk(create.code) && InFlight(create.body.status)
  {
    match create
    case Aborted => Outcome(Err(RequestTimeout), 0)
    case Raised(m) => Outcome(Err(Thrown(m)), 0)
    case Reply(code, body) =>
      if IsOk(code) then Poll(body, events, 0) else Outcome(Err(CreateFailure(code)), 0)
  }

  /** The request as App.tsx runs it. `sent` lists the bodies posted to the
      relay: the submission, then one status check per attempt, each for
      the id the submission returned. */
  method CallReplicate(systemPrompt: string, userPrompt: string, create: Reply, events: seq<Reply>)
    returns (result: Result<Output, Failure>, sent: seq<Js>)
    requires MaxAttempts <= |events|
    ensures |sent| >= 1 && sent[0] == CreationBody(systemPrompt + "\n" + userPrompt)
    ensures Call(create, events) == Outcome(result, |sent| - 1)
    ensures create.Reply? ==> forall i :: 1 <= i < |sent| ==> sent[i] == StatusBody(create.body.id)
  {
    sent := [CreationBody(systemPrompt + "\n" + userPrompt)];
    match create {
      case Aborted =>
        result := Err(RequestTimeout);
        return;
      case Raised(m) =>
        result := Err(Thrown(m));
        return;
      case Reply(code, body) =>
        if !IsOk(code) {
          result := Err(CreateFailure(code));
          return;
        }
    }
    var prediction := create.body;
    var current := prediction;
    var attempts: nat := 0;
    while InFlight(current.status) && attempts < MaxAttempts
      invariant attempts <= MaxAttempts
      invariant |sent| == attempts + 1 && sent[0] == CreationBody(systemPrompt + "\n" + userPrompt)
      invariant forall i :: 1 <= i < |sent| ==> sent[i] == StatusBody(prediction.id)
      invariant Poll(current, events, attempts) == Call(create, events)
    {
      attempts := attempts + 1;
      sent := sent + [StatusBody(prediction.id)];
      match events[attempts - 1] {
        case Aborted =>
          result := Err(StatusTimeout);
          return;
        case Raised(m) =>
          result := Err(Thrown(m));
          return;
        case Reply(code, body) =>
          if !IsOk(code) {
            result := Err(StatusError(code));
            return;
          }
          current := body;
      }
    }
    result := Settle(current);
  }

  /** A status check answered with 2xx and a snapshot still in flight. */
  predicate KeepsPolling(e: Reply) {
    e.Reply? && IsOk(e.code) && InFlight(e.body.status)
  }

  /** How a status check that does not keep the loop going ends it. */
  function Stop(e: Reply): Result<Output, Failure> {
    match e
    case Reply(code, body) => if IsOk(code) then Settle(body) else Err(StatusError(code))
    case Aborted => Err(StatusTimeout)
    case Raised(m) => Err(Thrown(m))
  }

  /** A rejected submission fails with its named failure after no check. */
  lemma {:induction false} RejectedSubmission(code: int, body: Snapshot, events: seq<Reply>)
    requires MaxAttempts <= |events| && !IsOk(code)
    ensures Call(Reply(code, body), events) == Outcome(Err(CreateFailure(code)), 0)
    ensures code == 401 ==> CreateFailure(code) == InvalidToken
    ensures code == 402 ==> CreateFailure(code) == InsufficientCredits
    ensures code == 429 ==> CreateFailure(code) == RateLimited
    ensures code == 422 ==> CreateFailure(code) == InvalidInput
  {
  }

  /** A submission that fails before any reply makes no check: an abort by
      the 30-second controller is `REQUEST_TIMEOUT`, and any other thrown
      error is rethrown unchanged. */
  lemma FailedSubmissionMakesNoCheck(m: string, events: seq<Reply>)
    requires MaxAttempts <= |events|
    ensures Call(Aborted, events) == Outcome(Err(RequestTimeout), 0)
    ensures Call(Raised(m), events) == Outcome(Err(Thrown(m)), 0)
  {
  }

  /** A submission that is already settled is classified without a check;
      in particular a `succeeded` one with truthy output returns it. */
  lemma {:induction false} SettledSubmission(code: int, body: Snapshot, events: seq<Reply>)
    requires MaxAttempts <= |events| && IsOk(code) && !InFlight(body.status)
    ensures Call(Reply(code, body), events) == Outcome(Settle(body), 0)
  {
  }

  /** While every check keeps the loop going, the loop runs on; the first
      check that does not decides the result at once. */
  lemma {:induction false} PollStopsAtFirstSettlingCheck(snap: Snapshot, events: seq<Reply>, start: nat, k: nat)
    requires start <= k < MaxAttempts <= |events|
    requires InFlight(snap.status)
    requires forall j :: start <= j < k ==> KeepsPolling(events[j])
    requires !KeepsPolling(events[k])
    ensures Poll(snap, events, start) == Outcome(Stop(events[k]), k + 1)
    decreases k - start
  {
    if start < k {
      PollStopsAtFirstSettlingCheck(events[start].body, events, start + 1, k);
    }
  }

  /** A job that stays in flight through every check ends as
      `PREDICTION_TIMEOUT` after exactly `MaxAttempts` checks. */
  lemma {:induction false} PollTimesOut(snap: Snapshot, events: seq<Reply>, start: nat)
    requires start <= MaxAttempts <= |events|
    requires InFlight(snap.status)
    requires forall j :: start <= j < MaxAttempts ==> KeepsPolling(events[j])
    ensures Poll(snap, events, start) == Outcome(Err(PredictionTimeout), MaxAttempts)
    decreases MaxAttempts - start
  {
    if start < MaxAttempts {
      PollTimesOut(events[start].body, events, start + 1);
    }
  }

  /** A job that is in flight at submission and stays so for the first `k`
      checks, then succeeds with truthy output `o`, returns `o` after
      exactly `k + 1` checks. */
  lemma SucceedsAfterChecks(create: Snapshot, code: int, events: seq<Reply>, k: nat, o: Output)
    requires MaxAttempts <= |events| && k < MaxAttempts
    requires IsOk(code) && InFlight(create.status)
    requires forall j :: 0 <= j < k ==> KeepsPolling(events[j])
    requires events[k].Reply? && IsOk(events[k].code)
    requires events[k].body.status == "succeeded" && events[k].body.output == o && OutputTruthy(o)
    ensures Call(Reply(code, create), events) == Outcome(Ok(o), k + 1)
  {
    PollStopsAtFirstSettlingCheck(create, events, 0, k);
  }

  /** A 2xx reply that is still in flight after the last check, or one with
      an unknown status, is a `PREDICTION_TIMEOUT`; `failed` and `canceled`
      keep their own failures. */
  lemma SettleNamesEachStatus(s: Snapshot)
    ensures s.status == "failed" <==> Settle(s) == Err(PredictionFailed)
    ensures s.status == "canceled" <==> Settle(s) == Err(PredictionCanceled)
    ensures Settle(s) == Err(PredictionTimeout) <==> s.status !in {"failed", "canceled", "succeeded"}
    ensures Settle(s) == Err(NoOutput) <==> s.status == "succeeded" && !OutputTruthy(s.output)
  {
  }

  /** An aborted status check is a `STATUS_TIMEOUT`, never the
      `REQUEST_TIMEOUT` of an aborted submission. */
  lemma {:induction false} AbortedCheckIsStatusTimeout(snap: Snapshot, events: seq<Reply>, k: nat)
    requires k < MaxAttempts <= |events| && InFlight(snap.status)
    requires forall j :: 0 <= j < k ==> KeepsPolling(events[j])
    requires events[k].Aborted?
    ensures Poll(snap, events, 0).result == Err(StatusTimeout)
    ensures Poll(snap, events, 0).result != Err(RequestTimeout)
  {
    PollStopsAtFirstSettlingCheck(snap, events, 0, k);
  }
}

=== FILE: app_output.dfy ===
/** The text cleanup App.tsx applies to the model's output before
    `JSON.parse`, one function per regular expression:
      .replace(/```json|```/g, '')              StripFences
      .replace(/^[^\{]*([\{\[].*)$/, '$1')       TrimLeadingProse
      .replace(/([\}\]])[^\}\]]*$/, '$1')        CutAfterLastCloser
      .trim()                                    Trim
    then the match /[\{\[][\s\S]*[\}\]]/ (Span with brackets). The page's
    own `match(/\{[\s\S]*\}/)`, used by "generate more" and by the other
    page, is Span with braces only. */
module AppOutput {
  import opened Text

  const Fence := "```"
  const JsonFence := "```json"

  predicate IsOpener(c: char) { c == '{' || c == '[' }
  predicate IsCloser(c: char) { c == '}' || c == ']' }

  predicate StartsWith(s: string, prefix: string) {
    |prefix| <= |s| && s[..|prefix|] == prefix
  }

  predicate FenceAt(s: string, i: int) {
    0 <= i && i + 3 <= |s| && s[i] == '`' && s[i + 1] == '`' && s[i + 2] == '`'
  }

  predicate HasFence(s: string) {
    exists i :: 0 <= i < |s| && FenceAt(s, i)
  }

  /** Global replacement of the alternation: scanning left to right, a
      match at the current position is removed (the longer alternative
      first) and the scan resumes after it. */
  function StripFences(s: string): (r: string)
    ensures |r| <= |s|
    decreases |s|
  {
    if StartsWith(s, JsonFence) then StripFences(s[7..])
    else if StartsWith(s, Fence) then StripFences(s[3..])
    else if s == [] then []
    else [s[0]] + StripFences(s[1..])
  }

  /** A string that does not start with a backtick keeps its first
      character in front. */
  lemma StripFencesKeepsHead(t: string)
    requires t != [] && t[0] != '`'
    ensures StripFences(t) != [] && StripFences(t)[0] == t[0]
  {
    assert !StartsWith(t, Fence);
    assert !StartsWith(t, JsonFence);
  }

  /** No run of three backticks survives the replacement, not even one
      formed by joining the text around a removed fence. */
  lemma {:induction false} StripFencesRemovesAll(s: string)
    ensures !HasFence(StripFences(s))
    decreases |s|
  {
    if StartsWith(s, JsonFence) {
      StripFencesRemovesAll(s[7..]);
    } else if StartsWith(s, Fence) {
      StripFencesRemovesAll(s[3..]);
    } else if s != [] {
      StripFencesRemovesAll(s[1..]);
      assert StripFences(s) == [s[0]] + StripFences(s[1..]);
      NoFenceAtHead(s);
      ConsKeepsNoFence(s[0], StripFences(s[1..]));
    }
  }

  /** Where the text does not start with a fence, its first kept
      character does not start one with what the replacement leaves of
      the rest. */
  lemma NoFenceAtHead(s: string)
    requires s != [] && !StartsWith(s, JsonFence) && !StartsWith(s, Fence)
    ensures !FenceAt([s[0]] + StripFences(s[1..]), 0)
  {
    var t := s[1..];
    if s[0] == '`' && t != [] && t[0] == '`' {
      // s starts with two backticks but not with three
      if |t| > 1 {
        assert t[1] != '`';
        assert !StartsWith(t, Fence) && !StartsWith(t, JsonFence);
        assert StripFences(t) == [t[0]] + StripFences(t[1..]);
        StripFencesKeepsHead(t[1..]);
      } else {
        assert StripFences(t) == [t[0]] + StripFences([]);
      }
    } else if s[0] == '`' && t != [] {
      StripFencesKeepsHead(t);
    }
  }

  /** A character in front of fence-free text adds no fence but possibly
      one at the front. */
  lemma ConsKeepsNoFence(c: char, rest: string)
    requires !HasFence(rest) && !FenceAt([c] + rest, 0)
    ensures !HasFence([c] + rest)
  {
    var r := [c] + rest;
    forall i | 0 < i < |r| ensures !FenceAt(r, i) {
      if FenceAt(r, i) { assert FenceAt(rest, i - 1); }
    }
  }

  /** Text without backticks passes through unchanged. */
  lemma {:induction false} StripFencesKeepsPlainText(s: string)
    requires forall i :: 0 <= i < |s| ==> s[i] != '`'
    ensures StripFences(s) == s
    decreases |s|
  {
    if s != [] {
      assert s[0] != '`';
      assert !StartsWith(s, Fence);
      assert !StartsWith(s, JsonFence);
      StripFencesKeepsPlainText(s[1..]);
    }
  }

  /** A closing fence after text without backticks is removed and the
      text kept. */
  lemma {:induction false} StripFencesThenFence(t: string)
    requires forall i :: 0 <= i < |t| ==> t[i] != '`'
    ensures StripFences(t + Fence) == t
    decreases |t|
  {
    if t == [] {
      assert t + Fence == Fence;
      assert StartsWith(Fence, Fence);
    } else {
      var s := t + Fence;
      assert s[0] == t[0] && s[0] != '`';
      assert !StartsWith(s, Fence);
      assert !StartsWith(s, JsonFence);
      assert s[1..] == t[1..] + Fence;
      TailHasNoBacktick(t);
      StripFencesThenFence(t[1..]);
      assert StripFences(s) == [s[0]] + StripFences(s[1..]);
      HeadThenTail(t);
    }
  }

  lemma HeadThenTail(t: string)
    requires t != []
    ensures [t[0]] + t[1..] == t
  {
  }

  lemma TailHasNoBacktick(t: string)
    requires t != [] && forall i :: 0 <= i < |t| ==> t[i] != '`'
    ensures forall i :: 0 <= i < |t[1..]| ==> t[1..][i] != '`'
  {
  }

  /** A ```json block around text without backticks comes out as that
      text: the replacement undoes the wrapping. */
  lemma StripFencesUnwrapsJson(t: string)
    requires forall i :: 0 <= i < |t| ==> t[i] != '`'
    ensures StripFences(JsonFence + t + Fence) == t
  {
    var s := JsonFence + (t + Fence);
    assert s[..7] == JsonFence;
    assert s[7..] == t + Fence;
    StripFencesThenFence(t);
    assert JsonFence + t + Fence == s;
  }

  /** A position the leading-text expression can capture from: no `{`
      before it, an opening bracket at it, and no line terminator after
      it (the `.` of `.*` stops at one, and `$` needs the end of input). */
  predicate LeadCandidate(s: string, p: int) {
    && 0 <= p < |s|
    && (forall j :: 0 <= j < p ==> s[j] != '{')
    && IsOpener(s[p])
    && (forall j :: p < j < |s| ==> !IsLineTerminator(s[j]))
  }

  /** The largest candidate at or below `p`, or -1. */
  function LastLeadCandidate(s: string, p: int): (r: int)
    requires -1 <= p < |s|
    ensures -1 <= r <= p
    ensures r >= 0 ==> LeadCandidate(s, r)
    ensures forall q :: r < q <= p ==> !LeadCandidate(s, q)
    decreases p + 1
  {
    if p < 0 then -1
    else if LeadCandidate(s, p) then p
    else LastLeadCandidate(s, p - 1)
  }

  /** The greedy `[^\{]*` backs off from the first `{` to the last position
      that lets the rest of the pattern match, so the capture starts at the
      largest candidate; without one the text is unchanged. The expression
      drops leading prose only when everything after the chosen bracket is
      on one line. */
  function TrimLeadingProse(s: string): (r: string)
    ensures (forall p :: 0 <= p < |s| ==> !LeadCandidate(s, p)) ==> r == s
    ensures (exists p :: 0 <= p < |s| && LeadCandidate(s, p)) ==>
              && LeadCandidate(s, |s| - |r|)
              && r == s[|s| - |r|..]
              && (forall q :: 0 <= q < |s| && LeadCandidate(s, q) ==> q <= |s| - |r|)
  {
    var p := LastLeadCandidate(s, |s| - 1);
    if p < 0 then s else s[p..]
  }

  /** The index of the last closing bracket, or -1. */
  function LastCloser(s: string): (r: int)
    ensures -1 <= r < |s|
    ensures r >= 0 ==> IsCloser(s[r])
    ensures forall j :: r < j < |s| ==> !IsCloser(s[j])
  {
    if s == [] then -1
    else if IsCloser(s[|s| - 1]) then |s| - 1
    else LastCloser(s[..|s| - 1])
  }

  /** Everything after the last closing bracket goes; text without one is
      unchanged. */
  function CutAfterLastCloser(s: string): (r: string)
    ensures (forall j :: 0 <= j < |s| ==> !IsCloser(s[j])) ==> r == s
    ensures (exists j :: 0 <= j < |s| && IsCloser(s[j])) ==>
              && 0 < |r| <= |s| && r == s[..|r|] && IsCloser(r[|r| - 1])
              && (forall j :: |r| <= j < |s| ==> !IsCloser(s[j]))
  {
    var c := LastCloser(s);
    if c < 0 then s else s[..c + 1]
  }

  /** The first index whose character is in `opens`, or -1. */
  function FirstIn(s: string, opens: set<char>): (r: int)
    ensures -1 <= r < |s|
    ensures r >= 0 ==> s[r] in opens
    ensures forall j :: 0 <= j < |s| && (r < 0 || j < r) ==> s[j] !in opens
  {
    if s == [] then -1
    else if s[0] in opens then 0
    else
      var k := FirstIn(s[1..], opens);
      assert forall j :: 1 <= j < |s| ==> s[j] == s[1..][j - 1];
      if k < 0 then -1 else k + 1
  }

  /** The last index whose character is in `closes`, or -1. */
  function LastIn(s: string, closes: set<char>): (r: int)
    ensures -1 <= r < |s|
    ensures r >= 0 ==> s[r] in closes
    ensures forall j :: r < j < |s| ==> s[j] !in closes
  {
    if s == [] then -1
    else if s[|s| - 1] in closes then |s| - 1
    else LastIn(s[..|s| - 1], closes)
  }

  /** Some opener comes before some closer: the pattern
      open, anything, close has a match. */
  predicate HasSpan(s: string, opens: set<char>, closes: set<char>) {
    exists o, c :: 0 <= o < c < |s| && s[o] in opens && s[c] in closes
  }

  /** `match ? match[0] : s` for open `[\s\S]*` close: the leftmost match
      starts at the first opener and, greedily, ends at the last closer. */
  function Span(s: string, opens: set<char>, closes: set<char>): (r: string)
    ensures !HasSpan(s, opens, closes) ==> r == s
    ensures HasSpan(s, opens, closes) ==>
              var o := FirstIn(s, opens);
              && 0 <= o && o + |r| <= |s| && r == s[o..o + |r|] && |r| >= 2
              && r[0] in opens && r[|r| - 1] in closes
              && (forall j :: 0 <= j < o ==> s[j] !in opens)
              && (forall j :: o + |r| <= j < |s| ==> s[j] !in closes)
  {
    var o := FirstIn(s, opens);
    var c := LastIn(s, closes);
    if 0 <= o < c then s[o..c + 1] else s
  }

  const Brackets: set<char> := {'{', '['}
  const ClosingBrackets: set<char> := {'}', ']'}

  /** The cleaned text, kept for display when parsing fails. */
  function Cleanup(s: string): string {
    Trim(CutAfterLastCloser(TrimLeadingProse(StripFences(s))))
  }

  /** The text handed to `JSON.parse`. */
  function JsonText(s: string): string {
    Span(Cleanup(s), Brackets, ClosingBrackets)
  }

  lemma SubstringKeepsNoFence(s: string, a: int, b: int)
    requires 0 <= a <= b <= |s| && !HasFence(s)
    ensures !HasFence(s[a..b])
  {
    forall i | 0 <= i < b - a ensures !FenceAt(s[a..b], i) {
      if FenceAt(s[a..b], i) { assert FenceAt(s, a + i); }
    }
  }

  /** Dropping leading prose keeps a fence-free text fence-free. */
  lemma TrimLeadingProseKeepsNoFence(a: string)
    requires !HasFence(a)
    ensures !HasFence(TrimLeadingProse(a))
  {
    var b := TrimLeadingProse(a);
    assert b == a[|a| - |b|..|a|];
    SubstringKeepsNoFence(a, |a| - |b|, |a|);
  }

  /** So does cutting after the last closer. */
  lemma CutKeepsNoFence(a: string)
    requires !HasFence(a)
    ensures !HasFence(CutAfterLastCloser(a))
  {
    var c := CutAfterLastCloser(a);
    assert c == a[..|c|];
    SubstringKeepsNoFence(a, 0, |c|);
  }

  /** And so does trimming. */
  lemma TrimKeepsNoFence(a: string)
    requires !HasFence(a)
    ensures !HasFence(Trim(a))
  {
    var t := Trim(a);
    var k := TrimStart(a);
    SubstringKeepsNoFence(a, k, k + |t|);
  }

  /** Trimming keeps a closing bracket at the end. */
  lemma TrimKeepsCloserLast(c: string)
    requires (exists j :: 0 <= j < |c| && IsCloser(c[j])) ==> IsCloser(c[|c| - 1])
    ensures var t := Trim(c);
            (exists j :: 0 <= j < |t| && IsCloser(t[j])) ==> IsCloser(t[|t| - 1])
  {
    var t := Trim(c);
    var k := TrimStart(c);
    if exists j :: 0 <= j < |t| && IsCloser(t[j]) {
      var j :| 0 <= j < |t| && IsCloser(t[j]);
      assert IsCloser(c[k + j]);
    }
  }

  /** The cleaned text holds no code fence, and when it holds a closing
      bracket it ends with one. */
  lemma CleanupShape(s: string)
    ensures !HasFence(Cleanup(s))
    ensures var t := Cleanup(s);
            (exists j :: 0 <= j < |t| && IsCloser(t[j])) ==> IsCloser(t[|t| - 1])
  {
    CleanupHasNoFence(s);
    CleanupEndsWithCloser(s);
  }

  lemma CleanupHasNoFence(s: string)
    ensures !HasFence(Cleanup(s))
  {
    var a := StripFences(s);
    StripFencesRemovesAll(s);
    TrimLeadingProseKeepsNoFence(a);
    var b := TrimLeadingProse(a);
    CutKeepsNoFence(b);
    TrimKeepsNoFence(CutAfterLastCloser(b));
  }

  lemma CleanupEndsWithCloser(s: string)
    ensures var t := Cleanup(s);
            (exists j :: 0 <= j < |t| && IsCloser(t[j])) ==> IsCloser(t[|t| - 1])
  {
    CutThenTrimEndsWithCloser(TrimLeadingProse(StripFences(s)));
  }

  /** Cutting and then trimming any text leaves a closing bracket last
      whenever one is left at all. */
  lemma CutThenTrimEndsWithCloser(b: string)
    ensures var t := Trim(CutAfterLastCloser(b));
            (exists j :: 0 <= j < |t| && IsCloser(t[j])) ==> IsCloser(t[|t| - 1])
  {
    var c := CutAfterLastCloser(b);
    assert (exists j :: 0 <= j < |c| && IsCloser(c[j])) ==> IsCloser(c[|c| - 1]) by {
      if exists j :: 0 <= j < |c| && IsCloser(c[j]) {
        var j :| 0 <= j < |c| && IsCloser(c[j]);
        assert c == b[..|c|] && IsCloser(b[j]);
      }
    }
    TrimKeepsCloserLast(c);
  }

  /** Text that starts with `{` keeps its start: no later position can be
      captured from. */
  lemma LeadingBraceKept(s: string)
    requires s != [] && s[0] == '{'
    ensures TrimLeadingProse(s) == s
  {
    assert forall p :: 0 < p < |s| ==> !LeadCandidate(s, p);
  }

  /** Text that ends with a closing bracket keeps its end. */
  lemma ClosingEndKept(s: string)
    requires s != [] && IsCloser(s[|s| - 1])
    ensures CutAfterLastCloser(s) == s
  {
  }

  /** Text that starts with an opener and ends with a closer is its own
      span. */
  lemma WholeSpan(s: string, opens: set<char>, closes: set<char>)
    requires |s| >= 2 && s[0] in opens && s[|s| - 1] in closes
    ensures Span(s, opens, closes) == s
  {
    assert HasSpan(s, opens, closes);
  }

  /** Text without an opener or a closer passes the bracket stages
      unchanged. */
  lemma BracketFreeKept(s: string)
    requires forall i :: 0 <= i < |s| ==> !IsOpener(s[i]) && !IsCloser(s[i])
    ensures TrimLeadingProse(s) == s
    ensures CutAfterLastCloser(s) == s
    ensures Span(s, Brackets, ClosingBrackets) == s
  {
    assert !HasSpan(s, Brackets, ClosingBrackets);
  }

  /** Text that already is a bare JSON object, without a backtick and
      with nothing around it, reaches `JSON.parse` unchanged. */
  lemma BareObjectPassesThrough(s: string)
    requires |s| >= 2 && s[0] == '{' && IsCloser(s[|s| - 1])
    requires forall i :: 0 <= i < |s| ==> s[i] != '`'
    ensures Cleanup(s) == s
    ensures JsonText(s) == s
  {
    BareObjectCleanup(s);
    WholeSpan(s, Brackets, ClosingBrackets);
  }

  lemma BareObjectCleanup(s: string)
    requires |s| >= 2 && s[0] == '{' && IsCloser(s[|s| - 1])
    requires forall i :: 0 <= i < |s| ==> s[i] != '`'
    ensures Cleanup(s) == s
  {
    StripFencesKeepsPlainText(s);
    KeptByBracketStages(s);
  }

  /** The stages after the fence removal leave a bare object as it is. */
  lemma KeptByBracketStages(s: string)
    requires |s| >= 2 && s[0] == '{' && IsCloser(s[|s| - 1])
    ensures Trim(CutAfterLastCloser(TrimLeadingProse(s))) == s
  {
    LeadingBraceKept(s);
    CutAndTrimKeep(s);
  }

  lemma CutAndTrimKeep(s: string)
    requires s != [] && !IsWhiteSpace(s[0]) && IsCloser(s[|s| - 1])
    ensures Trim(CutAfterLastCloser(s)) == s
  {
    ClosingEndKept(s);
    TrimKeepsTrimmed(s);
  }

  /** Prose without backticks, brackets or surrounding white space is
      left as it is by every stage, so it is what is shown when parsing
      fails. */
  lemma PlainProseKept(s: string)
    requires forall i :: 0 <= i < |s| ==> s[i] != '`' && !IsOpener(s[i]) && !IsCloser(s[i])
    requires s == [] || (!IsWhiteSpace(s[0]) && !IsWhiteSpace(s[|s| - 1]))
    ensures Cleanup(s) == s
    ensures JsonText(s) == s
  {
    StripFencesKeepsPlainText(s);
    BracketFreeKept(s);
    if s != [] {
      TrimKeepsTrimmed(s);
    }
  }

  /** A JSON object the model wrapped in a ```json block, on lines of its
      own, reaches `JSON.parse` as the object alone. */
  lemma FencedObjectExtracted(t: string)
    requires |t| >= 2 && t[0] == '{' && IsCloser(t[|t| - 1])
    requires forall i :: 0 <= i < |t| ==> t[i] != '`'
    ensures JsonText(JsonFence + "\n" + t + "\n" + Fence) == t
  {
    var u := "\n" + t + "\n";
    assert JsonFence + "\n" + t + "\n" + Fence == JsonFence + u + Fence;
    StripFencesUnwrapsJson(u);
    UnwrappedLinesKept(t);
    var c := "\n" + t;
    CutAtObjectEnd(t);
    NewlineTrimmed(t);
    WholeSpan(t, Brackets, ClosingBrackets);
  }

  /** The line break after the object leaves no capture position, so the
      leading-text expression changes nothing. */
  lemma UnwrappedLinesKept(t: string)
    requires |t| >= 2 && t[0] == '{'
    ensures TrimLeadingProse("\n" + t + "\n") == "\n" + t + "\n"
  {
    var u := "\n" + t + "\n";
    forall p | 0 <= p < |u| ensures !LeadCandidate(u, p) {
      if p > 1 {
        assert u[1] == '{';
      } else if p == 1 {
        assert IsLineTerminator(u[|u| - 1]);
      }
    }
  }

  /** Cutting after the last closer drops the final line break. */
  lemma CutAtObjectEnd(t: string)
    requires |t| >= 2 && IsCloser(t[|t| - 1])
    ensures CutAfterLastCloser("\n" + t + "\n") == "\n" + t
  {
    var u := "\n" + t + "\n";
    var r := CutAfterLastCloser(u);
    assert IsCloser(u[|t|]);
    assert !IsCloser(u[|t| + 1]);
    assert |r| == |t| + 1;
    assert r == u[..|t| + 1] == "\n" + t;
  }

  /** Trimming drops the line break in front of the object. */
  lemma NewlineTrimmed(t: string)
    requires |t| >= 2 && t[0] == '{' && IsCloser(t[|t| - 1])
    ensures Trim("\n" + t) == t
  {
    var c := "\n" + t;
    assert IsWhiteSpace(c[0]) && !IsWhiteSpace(c[1]);
    assert TrimStart(c) == 1;
    var r := Trim(c);
    assert !IsWhiteSpace(c[|c| - 1]);
    assert 1 + |r| == |c|;
    assert r == c[1..] == t;
  }

  /** Prose without a `{` in front of a one-line JSON object is dropped:
      the object alone reaches `JSON.parse`. */
  lemma ProseBeforeObjectDropped(p: string, t: string)
    requires forall i :: 0 <= i < |p| ==> p[i] != '{' && p[i] != '`'
    requires |t| >= 2 && t[0] == '{' && IsCloser(t[|t| - 1])
    requires forall i :: 0 <= i < |t| ==> t[i] != '`' && !IsLineTerminator(t[i])
    ensures Cleanup(p + t) == t
    ensures JsonText(p + t) == t
  {
    var s := p + t;
    StripFencesKeepsPlainText(s);
    ProseDropped(p, t);
    ClosingEndKept(t);
    TrimKeepsTrimmed(t);
    WholeSpan(t, Brackets, ClosingBrackets);
  }

  /** The capture starts at the object's `{`, the first one in the text. */
  lemma ProseDropped(p: string, t: string)
    requires forall i :: 0 <= i < |p| ==> p[i] != '{'
    requires |t| >= 2 && t[0] == '{'
    requires forall i :: 0 <= i < |t| ==> !IsLineTerminator(t[i])
    ensures TrimLeadingProse(p + t) == t
  {
    var s := p + t;
    assert LeadCandidate(s, |p|) by {
      assert forall j :: |p| < j < |s| ==> s[j] == t[j - |p|];
    }
    var r := TrimLeadingProse(s);
    var q := |s| - |r|;
    assert q >= |p|;
    assert s[|p|] == '{';
    assert q <= |p|;
    assert r == s[|p|..] == t;
  }

  /** With its only opener at `k`, followed by a line terminator, text has
      no capture position. */
  lemma NoLeadCandidateKept(s: string, k: nat)
    requires k + 1 < |s| && IsLineTerminator(s[k + 1])
    requires forall p :: 0 <= p < |s| && p != k ==> !IsOpener(s[p])
    ensures TrimLeadingProse(s) == s
  {
    assert !LeadCandidate(s, k);
  }

  /** With its only opener at `k` and its last character a closer, the
      span runs from `k` to the end. */
  lemma SpanFrom(s: string, k: nat)
    requires k + 1 < |s| && IsOpener(s[k]) && IsCloser(s[|s| - 1])
    requires forall p :: 0 <= p < k ==> !IsOpener(s[p])
    ensures Span(s, Brackets, ClosingBrackets) == s[k..]
  {
    assert HasSpan(s, Brackets, ClosingBrackets) by {
      assert s[k] in Brackets && s[|s| - 1] in ClosingBrackets;
    }
  }

  /** The refusal "I cannot comply." survives the cleanup unchanged. */
  lemma RefusalKept()
    ensures Cleanup("I cannot comply.") == "I cannot comply."
  {
    PlainProseKept("I cannot comply.");
  }

  /** The leading-text expression needs everything after the bracket on
      one line: before a JSON object written over two lines the prose is
      not dropped there, and only the final match isolates the object. */
  lemma MultiLineObjectKeepsProse()
    ensures TrimLeadingProse(MultiLineReply) == MultiLineReply
    ensures JsonText(MultiLineReply) == "{\n}"
  {
    MultiLineReplyCleanedAsIs();
    MultiLineReplySpan();
  }

  const MultiLineReply := "Sure:\n{\n}"

  lemma MultiLineReplySpan()
    ensures Span(MultiLineReply, Brackets, ClosingBrackets) == "{\n}"
  {
    SpanFrom(MultiLineReply, 6);
    assert MultiLineReply[6..] == "{\n}";
  }

  lemma MultiLineReplyCleanedAsIs()
    ensures TrimLeadingProse(MultiLineReply) == MultiLineReply
    ensures Cleanup(MultiLineReply) == MultiLineReply
  {
    MultiLineReplyHasNoBacktick();
    MultiLineReplyNotCaptured();
    CutAndTrimKeep(MultiLineReply);
  }

  lemma MultiLineReplyHasNoBacktick()
    ensures StripFences(MultiLineReply) == MultiLineReply
  {
    StripFencesKeepsPlainText(MultiLineReply);
  }

  lemma MultiLineReplyNotCaptured()
    ensures TrimLeadingProse(MultiLineReply) == MultiLineReply
  {
    NoLeadCandidateKept(MultiLineReply, 6);
  }
}

=== FILE: app_view.dfy ===
/** The part of App.tsx that turns a finished request into page state:
    the error-to-banner classification, the colour and icon lookups, the
    transform of parsed categories into cards, `generateAIRecommendations`,
    the "generate more" append with its fallback card, and `handleSearch`.
    React's state setters become a functional update of `View`; only the
    state after the handler has finished is modelled. */
module AppView {
  import opened Base
  import opened Text
  import opened Json
  import opened Prediction
  import opened AppClient
  import opened AppOutput

  /** The `apiError` banners. */
  datatype ApiError = CorsBlocked | Credits | Token | RateLimit | Timeout | General | JsonParse

  /** The classification in the outer `catch`, on the error's message. */
  function ClassifyMessage(m: string): (e: ApiError)
    ensures e != JsonParse
    ensures e == CorsBlocked <==> m == "CONNECTION_FAILED" || Contains(m, "fetch")
  {
    if m == "CONNECTION_FAILED" || Contains(m, "fetch") then CorsBlocked
    else if m == "INSUFFICIENT_CREDITS" then Credits
    else if m == "INVALID_TOKEN" then Token
    else if m == "RATE_LIMITED" then RateLimit
    else if m == "REQUEST_TIMEOUT" then Timeout
    else General
  }

  /** The banner for a failure; an engine-worded TypeError is `general`. */
  function Classify(f: Failure): ApiError {
    match Message(f)
    case None => General
    case Some(m) => ClassifyMessage(m)
  }

  /** A message without a lower-case 'f' mentions no "fetch". */
  lemma NoFetchWithoutF(m: string)
    requires forall i :: 0 <= i < |m| ==> m[i] != 'f'
    ensures !Contains(m, "fetch")
  {
    NoHeadNoContains(m, "fetch");
  }

  /** The failures of the request map to the banners as App.tsx lists
      them. */
  lemma ClassifyNamedFailures()
    ensures Classify(InsufficientCredits) == Credits
    ensures Classify(InvalidToken) == Token
    ensures Classify(RateLimited) == RateLimit
    ensures Classify(RequestTimeout) == Timeout
  {
    NoFetchWithoutF("INSUFFICIENT_CREDITS");
    NoFetchWithoutF("INVALID_TOKEN");
    NoFetchWithoutF("RATE_LIMITED");
    NoFetchWithoutF("REQUEST_TIMEOUT");
  }

  /** The other failures of the request and of the output all show the
      `general` banner. */
  lemma ClassifyOtherFailures()
    ensures Classify(InvalidInput) == General
    ensures Classify(StatusTimeout) == General
    ensures Classify(PredictionFailed) == General
    ensures Classify(PredictionCanceled) == General
    ensures Classify(TypeFailure) == General
  {
    ClassifyRejectedInput();
    ClassifyEndedJobs();
  }

  lemma ClassifyRejectedInput()
    ensures Classify(InvalidInput) == General
    ensures Classify(StatusTimeout) == General
  {
    NoFetchWithoutF("INVALID_INPUT");
    NoFetchWithoutF("STATUS_TIMEOUT");
  }

  lemma ClassifyEndedJobs()
    ensures Classify(PredictionFailed) == General
    ensures Classify(PredictionCanceled) == General
  {
    NoFetchWithoutF("PREDICTION_FAILED");
    NoFetchWithoutF("PREDICTION_CANCELED");
  }

  /** So do the failures of an empty or unreadable output. */
  lemma ClassifyOutputFailures()
    ensures Classify(PredictionTimeout) == General
    ensures Classify(NoOutput) == General
    ensures Classify(InvalidOutputFormat) == General
  {
    NoFetchWithoutF("PREDICTION_TIMEOUT");
    NoFetchWithoutF("NO_OUTPUT");
    NoFetchWithoutF("INVALID_OUTPUT_FORMAT");
  }

  /** A failure carrying an HTTP code, of the submission or of a status
      check, is `general`, whatever the code. */
  lemma ClassifyCodedFailures(code: int)
    ensures Classify(CreateError(code)) == General
    ensures Classify(StatusError(code)) == General
  {
    CodedMessageIsGeneral("CREATE_ERROR_", code);
    CodedMessageIsGeneral("STATUS_ERROR_", code);
  }

  /** A message made of an upper-case prefix and a number is none of the
      named messages and mentions no "fetch". */
  lemma CodedMessageIsGeneral(prefix: string, code: int)
    requires prefix == "CREATE_ERROR_" || prefix == "STATUS_ERROR_"
    ensures ClassifyMessage(prefix + IntToString(code)) == General
  {
    NumeralMessageIsGeneral(prefix, IntToString(code));
  }

  /** The same for any run of digits and minus signs after the prefix. */
  lemma NumeralMessageIsGeneral(prefix: string, digits: string)
    requires prefix == "CREATE_ERROR_" || prefix == "STATUS_ERROR_"
    requires forall k :: 0 <= k < |digits| ==> IsDigitChar(digits[k]) || digits[k] == '-'
    ensures ClassifyMessage(prefix + digits) == General
  {
    var m := prefix + digits;
    forall i | 0 <= i < |m| ensures m[i] != 'f' {
      if i >= |prefix| { assert m[i] == digits[i - |prefix|]; }
    }
    NoFetchWithoutF(m);
    assert m[1] == prefix[1] && m[2] == prefix[2];
  }

  /** The browser's network failure names `fetch`, so it is `cors_blocked`. */
  lemma NetworkFailureIsCorsBlocked()
    ensures Classify(Thrown("Failed to fetch")) == CorsBlocked
  {
    assert OccursAt("Failed to fetch", "fetch", 10);
  }

  const DefaultColor := "from-gray-400 to-gray-600"
  const DefaultBullet := "from-purple-400 to-pink-500"
  const DefaultIcon := "Zap"

  /** `getCategoryColorByName`'s table. */
  const CategoryColors: map<string, string> := map[
    "Automatyzacja Procesów" := "from-blue-400 to-blue-600",
    "Analiza i Raporty" := "from-green-400 to-emerald-600",
    "Tworzenie Treści" := "from-purple-400 to-pink-600",
    "Research i Analiza" := "from-orange-400 to-red-500",
    "Komunikacja" := "from-indigo-400 to-blue-600",
    "Asystent Biznesowy" := "from-yellow-400 to-orange-500",
    "Marketing i Sprzedaż" := "from-pink-400 to-rose-600",
    "Zarządzanie Projektami" := "from-teal-400 to-cyan-600",
    "Customer Success" := "from-emerald-400 to-teal-600",
    "Finanse i Księgowość" := "from-indigo-400 to-blue-600",
    "Design i Kreatywność" := "from-purple-400 to-pink-600",
    "E-commerce" := "from-cyan-400 to-blue-600"]

  /** `getCategoryBulletColor`'s table. */
  const BulletColors: map<string, string> := map[
    "from-pink-400 to-rose-600" := "from-pink-400 to-rose-500",
    "from-green-400 to-emerald-600" := "from-green-400 to-emerald-500",
    "from-purple-400 to-pink-600" := "from-purple-400 to-pink-500",
    "from-blue-400 to-blue-600" := "from-blue-400 to-blue-500",
    "from-emerald-400 to-teal-600" := "from-emerald-400 to-teal-500",
    "from-teal-400 to-cyan-600" := "from-teal-400 to-cyan-500",
    "from-yellow-400 to-orange-500" := "from-yellow-400 to-orange-500",
    "from-indigo-400 to-blue-600" := "from-indigo-400 to-blue-500"]

  /** `categoryIcons`, each icon by its component name. */
  const CategoryIcons: map<string, string> := map[
    "Automatyzacja Procesów" := "Cog",
    "Analiza i Raporty" := "BarChart3",
    "Tworzenie Treści" := "FileText",
    "Research i Analiza" := "Brain",
    "Komunikacja" := "MessageSquare",
    "Asystent Biznesowy" := "Bot",
    "Marketing i Sprzedaż" := "Target",
    "Zarządzanie Projektami" := "Calendar",
    "Rozwój Osobisty" := "Lightbulb",
    "Technologia" := "Code",
    "Customer Success" := "Users",
    "Finanse i Księgowość" := "Database",
    "Design i Kreatywność" := "PenTool",
    "E-commerce" := "Globe"]

  /** A table lookup with `||` and a default: every value in these
      tables is a non-empty string, so a listed key gives its value. */
  function Lookup(table: map<string, string>, key: string, default: string): (r: string)
    ensures key in table && table[key] != "" ==> r == table[key]
    ensures key !in table ==> r == default
  {
    if key in table && table[key] != "" then table[key] else default
  }

  /** Every value in the three tables is a non-empty string, so a listed
      key always finds its entry and an unlisted one the default. */
  lemma TablesFindListedEntries(key: string)
    ensures key in CategoryColors ==> Lookup(CategoryColors, key, DefaultColor) == CategoryColors[key]
    ensures key in BulletColors ==> Lookup(BulletColors, key, DefaultBullet) == BulletColors[key]
    ensures key in CategoryIcons ==> Lookup(CategoryIcons, key, DefaultIcon) == CategoryIcons[key]
    ensures key !in CategoryColors ==> Lookup(CategoryColors, key, DefaultColor) == DefaultColor
    ensures key !in BulletColors ==> Lookup(BulletColors, key, DefaultBullet) == DefaultBullet
    ensures key !in CategoryIcons ==> Lookup(CategoryIcons, key, DefaultIcon) == DefaultIcon
  {
  }

  /** The colour of a category, looked up by its name as a property key. */
  function ColorByName(name: Js): string {
    Lookup(CategoryColors, ToString(name), DefaultColor)
  }

  function BulletColor(color: string): string {
    Lookup(BulletColors, color, DefaultBullet)
  }

  function IconByName(name: Js): string {
    Lookup(CategoryIcons, ToString(name), DefaultIcon)
  }

  /** The two tables do not quite agree: the bullet is the default shade
      exactly for the names outside the colour table, for "Research i
      Analiza" and "E-commerce", whose colours the bullet table lacks, and
      for the two purple categories, whose bullet is that same shade. */
  lemma BulletDefaultsExactly(name: Js)
    ensures BulletColor(ColorByName(name)) == DefaultBullet <==>
              ToString(name) !in CategoryColors
              || ToString(name) == "Research i Analiza" || ToString(name) == "E-commerce"
              || ToString(name) == "Tworzenie Treści" || ToString(name) == "Design i Kreatywność"
  {
    var k := ToString(name);
    if k in CategoryColors {
      BulletOfListedName(k);
    } else {
      assert DefaultColor !in BulletColors;
    }
  }

  lemma BulletOfListedName(k: string)
    requires k in CategoryColors
    ensures BulletColor(CategoryColors[k]) == DefaultBullet <==>
              k == "Research i Analiza" || k == "E-commerce"
              || k == "Tworzenie Treści" || k == "Design i Kreatywność"
  {
  }

  /** Every coloured category has an icon of its own, and two names with
      an icon of their own get the grey default colour. */
  lemma IconsCoverColors(name: string)
    ensures name in CategoryColors ==> IconByName(Str(name)) != DefaultIcon
    ensures name == "Rozwój Osobisty" || name == "Technologia" ==>
              IconByName(Str(name)) != DefaultIcon && ColorByName(Str(name)) == DefaultColor
  {
  }

  /** One category card. */
  datatype Category = Category(
    name: Js,
    icon: string,
    color: string,
    applications: seq<Application>,
    hasMore: bool)

  /** The card for one parsed category: `None` where App.tsx throws a
      TypeError (a `null` category, `applications` that is no array, a
      `null` application). `now` is the one clock reading of the
      transform. */
  function CategoryOf(cat: Js, now: int): (r: Option<Category>)
    ensures r.Some? <==> !IsNullish(cat) && Field(cat, "applications").Arr?
                         && ListedApps(Field(cat, "applications").items, Field(cat, "name"), now).Some?
    ensures r.Some? ==> && r.value.name == Field(cat, "name")
                        && r.value.color == ColorByName(Field(cat, "name"))
                        && r.value.icon == IconByName(Field(cat, "name"))
                        && !r.value.hasMore
                        && r.value.applications == ListedApps(Field(cat, "applications").items, Field(cat, "name"), now).value
  {
    if IsNullish(cat) then None
    else
      var name := Field(cat, "name");
      var apps := Field(cat, "applications");
      if !apps.Arr? then None
      else
        match ListedApps(apps.items, name, now)
        case None => None
        case Some(cards) => Some(Category(name, IconByName(name), ColorByName(name), cards, false))
  }

  /** `aiResponse.categories.map(...)`: one card per category, in order,
      or `None` when any category throws. */
  function Transform(cats: seq<Js>, now: int): (r: Option<seq<Category>>)
    ensures r.Some? <==> forall i :: 0 <= i < |cats| ==> CategoryOf(cats[i], now).Some?
    ensures r.Some? ==> |r.value| == |cats|
    ensures r.Some? ==> forall i :: 0 <= i < |cats| ==> r.value[i] == CategoryOf(cats[i], now).value
  {
    if forall i :: 0 <= i < |cats| ==> CategoryOf(cats[i], now).Some? then
      Some(seq(|cats|, i requires 0 <= i < |cats| => CategoryOf(cats[i], now).value))
    else
      None
  }

  /** Two card lists that differ at most in their clock-derived ids. */
  predicate SameContent(a: seq<Category>, b: seq<Category>) {
    && |a| == |b|
    && forall i :: 0 <= i < |a| ==>
         && a[i].name == b[i].name && a[i].color == b[i].color && a[i].icon == b[i].icon
         && a[i].hasMore == b[i].hasMore
         && |a[i].applications| == |b[i].applications|
         && forall j :: 0 <= j < |a[i].applications| ==>
              a[i].applications[j].(id := "") == b[i].applications[j].(id := "")
  }

  /** Transforming the same tree at two instants gives the same cards up
      to their ids. */
  lemma TransformIgnoresClockButIds(cats: seq<Js>, now1: int, now2: int)
    requires Transform(cats, now1).Some?
    ensures Transform(cats, now2).Some?
    ensures SameContent(Transform(cats, now1).value, Transform(cats, now2).value)
  {
    var a := Transform(cats, now1).value;
    var b := Transform(cats, now2).value;
    forall i | 0 <= i < |cats| ensures CategoryOf(cats[i], now2).Some? {
      assert CategoryOf(cats[i], now1).Some?;
    }
    forall i, j | 0 <= i < |a| && 0 <= j < |a[i].applications|
      ensures a[i].applications[j].(id := "") == b[i].applications[j].(id := "")
    {
      var apps := Field(cats[i], "applications").items;
      assert a[i].applications == ListedApps(apps, Field(cats[i], "name"), now1).value;
      assert b[i].applications == ListedApps(apps, Field(cats[i], "name"), now2).value;
    }
  }

  /** The state the two handlers read and write. */
  datatype View = View(
    results: seq<Category>,
    isLoading: bool,
    hasSearched: bool,
    apiError: Option<ApiError>,
    rawApiOutput: Option<string>,
    generatingMore: Option<string>,
    showSuggestions: bool)

  /** How `generateAIRecommendations` ends: cards, the `json_parse` branch
      with the text kept for display, or a thrown failure. */
  datatype Recommendation = Cards(cats: seq<Category>) | Unparsed(raw: Option<string>) | Failed(failure: Failure)

  /** The parse branch and the transform: `parsed` is what `JSON.parse`
      gave for the extracted text (the tree, or its SyntaxError's message)
      and `cleaned` the text kept for display. */
  function Interpret(parsed: Result<Js, string>, cleaned: string, now: int): (r: Recommendation)
    ensures r.Unparsed? ==> r.raw == (if parsed.Err? then Some(cleaned) else None)
    ensures parsed.Err? ==> r == Unparsed(Some(cleaned))
    ensures r.Cards? ==> parsed.Ok? && Field(parsed.value, "categories").Arr?
                         && Transform(Field(parsed.value, "categories").items, now) == Some(r.cats)
    ensures parsed.Ok? && !Field(parsed.value, "categories").Arr? ==> r == Unparsed(None)
    ensures parsed.Ok? && Field(parsed.value, "categories").Arr? ==>
              var t := Transform(Field(parsed.value, "categories").items, now);
              r == if t.Some? then Cards(t.value) else Failed(TypeFailure)
  {
    var response := if parsed.Ok? then parsed.value else Undefined;
    var cats := Field(response, "categories");
    if !Truthy(response) || !Truthy(cats) || !cats.Arr? then
      Unparsed(if parsed.Err? then Some(cleaned) else None)
    else
      match Transform(cats.items, now)
      case None => Failed(TypeFailure)
      case Some(cards) => Cards(cards)
  }

  /** The work between the request and the state update. `parse` is
      `JSON.parse`: the tree, or the message of its SyntaxError. */
  function Recommendations(result: Result<Output, Failure>, parse: string -> Result<Js, string>, now: int): (r: Recommendation)
    ensures result.Err? ==> r == Failed(result.error)
    ensures result.Ok? && Coerce(result.value).None? ==> r == Failed(InvalidOutputFormat)
    ensures result.Ok? && Coerce(result.value).Some? ==>
              var text := Coerce(result.value).value;
              r == Interpret(parse(JsonText(text)), Cleanup(text), now)
  {
    match result
    case Err(f) => Failed(f)
    case Ok(output) =>
      match Coerce(output)
      case None => Failed(InvalidOutputFormat)
      case Some(text) => Interpret(parse(JsonText(text)), Cleanup(text), now)
  }

  /** `generateAIRecommendations` once the request `Call(create, events)`
      has completed. */
  function Recommend(v: View, create: Reply, events: seq<Reply>, parse: string -> Result<Js, string>, now: int): (r: View)
    requires MaxAttempts <= |events|
    ensures !r.isLoading && r.hasSearched
    ensures r.generatingMore == v.generatingMore && r.showSuggestions == v.showSuggestions
    ensures r.apiError == Some(JsonParse) ==> r.results == []
    ensures r.apiError.None? ==> r.rawApiOutput == v.rawApiOutput
    ensures var rec := Recommendations(Call(create, events).result, parse, now);
            && (rec.Cards? ==> r.results == rec.cats && r.apiError.None? && r.rawApiOutput == v.rawApiOutput)
            && (rec.Unparsed? ==> r.results == [] && r.apiError == Some(JsonParse) && r.rawApiOutput == rec.raw)
            && (rec.Failed? ==> r.results == v.results && r.apiError == Some(Classify(rec.failure))
                                && r.rawApiOutput == v.rawApiOutput)
  {
    var done := v.(isLoading := false, hasSearched := true);
    match Recommendations(Call(create, events).result, parse, now)
    case Cards(cards) => done.(results := cards, apiError := None)
    case Unparsed(raw) => done.(results := [], apiError := Some(JsonParse), rawApiOutput := raw)
    case Failed(f) => done.(apiError := Some(Classify(f)))
  }

  /** A failed request shows its banner and keeps the cards and the raw
      output of the previous search. */
  lemma FailedRequestKeepsResults(v: View, create: Reply, events: seq<Reply>, parse: string -> Result<Js, string>, now: int)
    requires MaxAttempts <= |events| && Call(create, events).result.Err?
    ensures var r := Recommend(v, create, events, parse, now);
            && r.apiError == Some(Classify(Call(create, events).result.error))
            && r.results == v.results && r.rawApiOutput == v.rawApiOutput
  {
  }

  /** An aborted submission shows the `timeout` banner and keeps the
      previous cards and raw output. */
  lemma AbortedSubmissionShowsTimeout(v: View, events: seq<Reply>, parse: string -> Result<Js, string>, now: int)
    requires MaxAttempts <= |events|
    ensures var r := Recommend(v, Aborted, events, parse, now);
            && r.apiError == Some(Timeout) && r.results == v.results && r.rawApiOutput == v.rawApiOutput
  {
    FailedSubmissionMakesNoCheck("", events);
    ClassifyNamedFailures();
  }

  /** Output with no text in it shows the `general` banner and keeps the
      cards and the raw output of the previous search. */
  lemma TextlessOutputIsGeneral(v: View, create: Reply, events: seq<Reply>, parse: string -> Result<Js, string>, now: int)
    requires MaxAttempts <= |events|
    requires Call(create, events).result.Ok? && Coerce(Call(create, events).result.value).None?
    ensures var r := Recommend(v, create, events, parse, now);
            && r.apiError == Some(General) && r.results == v.results && r.rawApiOutput == v.rawApiOutput
  {
    ClassifyOutputFailures();
  }

  /** Output text that does not parse: the `json_parse` banner, no cards,
      and the cleaned text kept for display. */
  lemma UnparsableOutputShown(v: View, create: Reply, events: seq<Reply>, parse: string -> Result<Js, string>, now: int, text: string)
    requires MaxAttempts <= |events|
    requires Call(create, events).result.Ok? && Coerce(Call(create, events).result.value) == Some(text)
    requires parse(JsonText(text)).Err?
    ensures var r := Recommend(v, create, events, parse, now);
            && r.apiError == Some(JsonParse) && r.results == [] && r.rawApiOutput == Some(Cleanup(text))
  {
  }

  /** Parsed output without a `categories` array: the same banner and no
      cards, but nothing to show. */
  lemma MisshapenOutputClearsRaw(v: View, create: Reply, events: seq<Reply>, parse: string -> Result<Js, string>, now: int, text: string)
    requires MaxAttempts <= |events|
    requires Call(create, events).result.Ok? && Coerce(Call(create, events).result.value) == Some(text)
    requires parse(JsonText(text)).Ok? && !Field(parse(JsonText(text)).value, "categories").Arr?
    ensures var r := Recommend(v, create, events, parse, now);
            && r.apiError == Some(JsonParse) && r.results == [] && r.rawApiOutput.None?
  {
  }

  /** The tree `{categories: cats}` becomes the transformed cards. */
  lemma TreeBecomesCards(cleaned: string, now: int, cats: seq<Js>)
    requires Transform(cats, now).Some?
    ensures Interpret(Ok(Obj(map["categories" := Arr(cats)])), cleaned, now) == Cards(Transform(cats, now).value)
  {
    assert Field(Obj(map["categories" := Arr(cats)]), "categories") == Arr(cats);
  }

  /** A well-formed tree becomes the cards, one per category, and clears
      the banner. */
  lemma ParsedOutputBecomesCards(v: View, create: Reply, events: seq<Reply>, parse: string -> Result<Js, string>, now: int, text: string, cats: seq<Js>)
    requires MaxAttempts <= |events|
    requires Call(create, events).result.Ok? && Coerce(Call(create, events).result.value) == Some(text)
    requires parse(JsonText(text)) == Ok(Obj(map["categories" := Arr(cats)]))
    requires Transform(cats, now).Some?
    ensures var r := Recommend(v, create, events, parse, now);
            && r.apiError.None? && r.results == Transform(cats, now).value && |r.results| == |cats|
  {
    TreeBecomesCards(Cleanup(text), now, cats);
    assert Recommendations(Call(create, events).result, parse, now) == Cards(Transform(cats, now).value);
  }

  /** `handleSearch`: a query of white space only does nothing; any other
      query runs the recommendation and hides the suggestions. */
  function HandleSearch(v: View, query: string, create: Reply, events: seq<Reply>, parse: string -> Result<Js, string>, now: int): (r: View)
    requires MaxAttempts <= |events|
    ensures (forall i :: 0 <= i < |query| ==> IsWhiteSpace(query[i])) ==> r == v
    ensures (exists i :: 0 <= i < |query| && !IsWhiteSpace(query[i])) ==>
              r == Recommend(v, create, events, parse, now).(showSuggestions := false)
  {
    TrimEmptyIff(query);
    if Trim(query) != "" then Recommend(v, create, events, parse, now).(showSuggestions := false) else v
  }

  /** `${categoryName}-gen-${now}-${index}`. */
  function GeneratedId(categoryName: string, now: int, index: nat): string {
    categoryName + "-gen-" + IntToString(now) + "-" + NatToString(index)
  }

  /** `aiResponse.applications.map(...)` of "generate more": `None` when
      an application is `null`. */
  function GeneratedApps(apps: seq<Js>, categoryName: string, now: int): (r: Option<seq<Application>>)
    ensures r.Some? <==> forall i :: 0 <= i < |apps| ==> !IsNullish(apps[i])
    ensures r.Some? ==> |r.value| == |apps|
    ensures r.Some? ==> forall i :: 0 <= i < |apps| ==>
                          && r.value[i].id == GeneratedId(categoryName, now, i)
                          && r.value[i].title == Field(apps[i], "title")
                          && r.value[i].description == Field(apps[i], "description")
                          && r.value[i].prompt == Field(apps[i], "prompt")
                          && r.value[i].category == Str(categoryName)
                          && r.value[i].examples == ExamplesOrEmpty(Field(apps[i], "examples"))
                          && r.value[i].isGenerated
  {
    if forall i :: 0 <= i < |apps| ==> !IsNullish(apps[i]) then
      Some(seq(|apps|, i requires 0 <= i < |apps| =>
        Application(GeneratedId(categoryName, now, i), Field(apps[i], "title"), Field(apps[i], "description"),
                    Str(categoryName), Field(apps[i], "prompt"), ExamplesOrEmpty(Field(apps[i], "examples")), true)))
    else
      None
  }

  const MockExamples: seq<Js> := [
    Str("Mapowanie obecnych procesów z time tracking"),
    Str("Identyfikacja możliwości automatyzacji"),
    Str("Projektowanie nowych workflow z bottleneck elimination"),
    Str("Implementation plan z milestone tracking"),
    Str("Performance measurement z KPI monitoring")]

  const MockTitle := "Smart Process Optimizer"
  const MockDescription :=
    "Optymalizuje procesy w kategorii poprzez analizę przepływów pracy i automatyzację kluczowych zadań."
  const MockPromptHead := "Optymalizując procesy w obszarze "
  const MockPromptTail :=
    ", pomóż mi: 1) Zidentyfikować wąskie gardła, 2) Zaprojektować efektywniejsze workflow, "
    + "3) Zautomatyzować powtarzalne zadania, 4) Zmierzyć i monitorować poprawę wydajności."

  /** The one card "generate more" adds when anything goes wrong. */
  function MockApp(categoryName: string, now: int): (a: Application)
    ensures a.isGenerated && a.category == Str(categoryName)
    ensures a.examples.Arr? && |a.examples.items| == 5
  {
    Application(
      categoryName + "-fallback-" + IntToString(now),
      Str(MockTitle),
      Str(MockDescription),
      Str(categoryName),
      Str(MockPromptHead + ToLower(categoryName) + MockPromptTail),
      Arr(MockExamples),
      true)
  }

  /** The `setResults` update: the applications go to the end of every
      category named `categoryName`; every other category is untouched. */
  function AppendTo(results: seq<Category>, categoryName: string, apps: seq<Application>): (r: seq<Category>)
    ensures |r| == |results|
    ensures forall i :: 0 <= i < |results| && results[i].name != Str(categoryName) ==> r[i] == results[i]
    ensures forall i :: 0 <= i < |results| && results[i].name == Str(categoryName) ==>
              r[i] == results[i].(applications := results[i].applications + apps)
  {
    seq(|results|, i requires 0 <= i < |results| =>
      if results[i].name == Str(categoryName) then results[i].(applications := results[i].applications + apps)
      else results[i])
  }

  /** How many cards the categories hold. */
  function CardCount(cats: seq<Category>): nat {
    if cats == [] then 0 else |cats[0].applications| + CardCount(cats[1..])
  }

  /** How many categories carry the name. */
  function Named(cats: seq<Category>, categoryName: string): nat {
    if cats == [] then 0 else (if cats[0].name == Str(categoryName) then 1 else 0) + Named(cats[1..], categoryName)
  }

  /** The append adds `|apps|` cards per category of that name and no
      others. */
  lemma {:induction false} AppendCount(results: seq<Category>, categoryName: string, apps: seq<Application>)
    ensures CardCount(AppendTo(results, categoryName, apps)) == CardCount(results) + Named(results, categoryName) * |apps|
    decreases |results|
  {
    if results != [] {
      AppendCount(results[1..], categoryName, apps);
      assert AppendTo(results, categoryName, apps)[1..] == AppendTo(results[1..], categoryName, apps);
    }
  }

  /** What "generate more" gets from the request: the new cards, or the
      failure that sends it to the fallback. */
  function MoreApps(result: Result<Output, Failure>, categoryName: string, parse: string -> Result<Js, string>, now: int): (r: Result<seq<Application>, Failure>)
    ensures result.Err? ==> r == Err(result.error)
    ensures r.Ok? ==> forall i :: 0 <= i < |r.value| ==> r.value[i].isGenerated && r.value[i].category == Str(categoryName)
    ensures result.Ok? ==>
              var tree := parse(Span(Coerce(result.value).GetOr(""), {'{'}, {'}'}));
              && (tree.Err? ==> r == Err(ParseFailure(tree.error)))
              && (r.Ok? <==> tree.Ok? && Field(tree.value, "applications").Arr?
                             && GeneratedApps(Field(tree.value, "applications").items, categoryName, now).Some?)
              && (r.Ok? ==> r.value == GeneratedApps(Field(tree.value, "applications").items, categoryName, now).value)
              && (r.Err? && tree.Ok? ==> r == Err(TypeFailure))
  {
    match result
    case Err(f) => Err(f)
    case Ok(output) =>
      var text := Coerce(output).GetOr("");
      match parse(Span(text, {'{'}, {'}'}))
      case Err(reason) => Err(ParseFailure(reason))
      case Ok(response) =>
        match Get(response, "applications")
        case None => Err(TypeFailure)
        case Some(apps) =>
          if !apps.Arr? then Err(TypeFailure)
          else
            match GeneratedApps(apps.items, categoryName, now)
            case None => Err(TypeFailure)
            case Some(cards) => Ok(cards)
  }

  /** `generateMoreApplications` once its request has completed: the new
      cards, or the one fallback card, are appended to the named category;
      only a network failure raises a banner. */
  function GenerateMore(v: View, categoryName: string, create: Reply, events: seq<Reply>, parse: string -> Result<Js, string>, now: int): (r: View)
    requires MaxAttempts <= |events|
    ensures r.generatingMore.None?
    ensures r.apiError.Some? ==> r.apiError == Some(CorsBlocked)
    ensures r.isLoading == v.isLoading && r.hasSearched == v.hasSearched && r.rawApiOutput == v.rawApiOutput
    ensures r.showSuggestions == v.showSuggestions
    ensures |r.results| == |v.results|
    ensures forall i :: 0 <= i < |v.results| && v.results[i].name != Str(categoryName) ==> r.results[i] == v.results[i]
  {
    AddMore(v, categoryName, MoreApps(Call(create, events).result, categoryName, parse, now), now)
  }

  /** The state update after the request: the cards, or on a failure the
      fallback card, are appended, and the banner is set for a network
      failure and cleared otherwise. */
  function AddMore(v: View, categoryName: string, more: Result<seq<Application>, Failure>, now: int): (r: View)
    ensures r.generatingMore.None?
    ensures r.apiError.Some? ==> r.apiError == Some(CorsBlocked)
    ensures r.isLoading == v.isLoading && r.hasSearched == v.hasSearched && r.rawApiOutput == v.rawApiOutput
    ensures r.showSuggestions == v.showSuggestions
    ensures |r.results| == |v.results|
    ensures forall i :: 0 <= i < |v.results| && v.results[i].name != Str(categoryName) ==> r.results[i] == v.results[i]
  {
    var apps := if more.Ok? then more.value else [MockApp(categoryName, now)];
    var banner := if more.Err? && Classify(more.error) == CorsBlocked then Some(CorsBlocked) else None;
    v.(results := AppendTo(v.results, categoryName, apps), apiError := banner, generatingMore := None)
  }

  /** On any failure exactly the fallback card is appended to each
      category of that name, and the banner is shown only for a network
      failure. */
  lemma FailedGenerationAppendsFallback(v: View, categoryName: string, create: Reply, events: seq<Reply>, parse: string -> Result<Js, string>, now: int)
    requires MaxAttempts <= |events|
    requires MoreApps(Call(create, events).result, categoryName, parse, now).Err?
    ensures var r := GenerateMore(v, categoryName, create, events, parse, now);
            && r.results == AppendTo(v.results, categoryName, [MockApp(categoryName, now)])
            && CardCount(r.results) == CardCount(v.results) + Named(v.results, categoryName)
            && (r.apiError == Some(CorsBlocked) <==>
                  Classify(MoreApps(Call(create, events).result, categoryName, parse, now).error) == CorsBlocked)
  {
    FailureAddsFallback(v, categoryName, MoreApps(Call(create, events).result, categoryName, parse, now), now);
  }

  lemma FailureAddsFallback(v: View, categoryName: string, more: Result<seq<Application>, Failure>, now: int)
    requires more.Err?
    ensures var r := AddMore(v, categoryName, more, now);
            && r.results == AppendTo(v.results, categoryName, [MockApp(categoryName, now)])
            && CardCount(r.results) == CardCount(v.results) + Named(v.results, categoryName)
            && (r.apiError == Some(CorsBlocked) <==> Classify(more.error) == CorsBlocked)
  {
    AppendCount(v.results, categoryName, [MockApp(categoryName, now)]);
  }

  /** Parsed applications are appended, in order, to each category of that
      name; the banner is cleared. */
  lemma GeneratedAppsAppended(v: View, categoryName: string, create: Reply, events: seq<Reply>, parse: string -> Result<Js, string>, now: int)
    requires MaxAttempts <= |events|
    requires MoreApps(Call(create, events).result, categoryName, parse, now).Ok?
    ensures var cards := MoreApps(Call(create, events).result, categoryName, parse, now).value;
            var r := GenerateMore(v, categoryName, create, events, parse, now);
            && r.results == AppendTo(v.results, categoryName, cards)
            && CardCount(r.results) == CardCount(v.results) + Named(v.results, categoryName) * |cards|
            && r.apiError.None?
  {
    SuccessAppendsCards(v, categoryName, MoreApps(Call(create, events).result, categoryName, parse, now), now);
  }

  lemma SuccessAppendsCards(v: View, categoryName: string, more: Result<seq<Application>, Failure>, now: int)
    requires more.Ok?
    ensures var r := AddMore(v, categoryName, more, now);
            && r.results == AppendTo(v.results, categoryName, more.value)
            && CardCount(r.results) == CardCount(v.results) + Named(v.results, categoryName) * |more.value|
            && r.apiError.None?
  {
    AppendCount(v.results, categoryName, more.value);
  }

  /** A request that fails before any output shows the banner only for a
      network failure; a rejected submission never does. */
  lemma RejectedGenerationHasNoBanner(v: View, categoryName: string, code: int, body: Snapshot, events: seq<Reply>, parse: string -> Result<Js, string>, now: int)
    requires MaxAttempts <= |events| && !IsOk(code)
    ensures GenerateMore(v, categoryName, Reply(code, body), events, parse, now).apiError.None?
  {
    var f := CreateFailure(code);
    assert MoreApps(Call(Reply(code, body), events).result, categoryName, parse, now) == Err(f);
    ClassifyCodedFailures(code);
    ClassifyNamedFailures();
    ClassifyOtherFailures();
    assert Classify(f) != CorsBlocked;
  }
}

=== FILE: base.dfy ===
/** Option and Result, the two failure-carrying wrappers the model uses
    for values the JavaScript code may lack and for thrown errors. */
module Base {

  datatype Option<+T> = None | Some(value: T) {
    function GetOr(default: T): T {
      match this
      case Some(v) => v
      case None => default
    }
  }

  datatype Result<+R, +E> = Ok(value: R) | Err(error: E)
}

=== FILE: client_proxy.dfy ===
/** The two request bodies the pages send, as the relay routes them: the
    submission reaches the creation endpoint unchanged, and a status check
    reaches the status endpoint of the id it names. */
module ClientProxy {
  import opened Base
  import opened Json
  import opened Prediction
  import opened ReplicateProxy

  /** With a key configured, the submission body is forwarded as is. */
  lemma CreationBodyForwarded(env: Env, prompt: string)
    requires ApiKey(env) != ""
    ensures Dispatch("POST", env, CreationBody(prompt)) == Forward(CreateRequest(ApiKey(env), CreationBody(prompt)))
  {
    assert Field(CreationBody(prompt), "version") == Str(ModelVersion);
  }

  /** A status check for a non-empty id becomes a GET of
      `.../predictions/<id>`. */
  lemma StatusBodyForwarded(env: Env, id: string)
    requires ApiKey(env) != "" && id != ""
    ensures Dispatch("POST", env, StatusBody(id)) == Forward(StatusRequest(ApiKey(env), Str(id)))
    ensures Dispatch("POST", env, StatusBody(id)).request.url == PredictionsUrl + "/" + id
    ensures Dispatch("POST", env, StatusBody(id)).request.verb == "GET"
  {
    assert Field(StatusBody(id), "version") == Undefined;
  }

  /** A status check for a submission that returned no id gets 400. */
  lemma MissingIdRejected(env: Env, reply: UpstreamReply)
    requires ApiKey(env) != ""
    ensures Handle("POST", env, StatusBody(""), reply) == Response(400, ErrorBody("Invalid request body"))
  {
    assert Field(StatusBody(""), "version") == Undefined;
  }
}

=== FILE: index_page.dfy ===
/** The simpler page, pages/index.tsx. Its own copy of the request loop
    turns every failure into the single error `API_ERROR`; its recommendation
    handler replaces any failure by a fixed fallback category; its cards
    carry no icon, colour or `hasMore`. */
module IndexPage {
  import opened Base
  import opened Text
  import opened Json
  import opened Prediction
  import opened AppOutput
  import AppClient
  import AppView

  /** How the request ends: the output, or `None` for `API_ERROR`; and the
      number of status checks made. */
  datatype Attempt = Attempt(output: Option<Output>, polls: nat)

  /** The check after the loop: only a `succeeded` snapshot with truthy
      output yields it. */
  function Final(s: Snapshot): (r: Option<Output>)
    ensures r.Some? <==> s.status == "succeeded" && OutputTruthy(s.output)
    ensures r.Some? ==> r.value == s.output
  {
    if s.status != "succeeded" || !OutputTruthy(s.output) then None else Some(s.output)
  }

  /** The poll loop from snapshot `snap` after `attempts` checks; check
      number k (counting from 0) receives `events[k]`. Any reply but a 2xx
      one ends the request. */
  function Poll(snap: Snapshot, events: seq<Reply>, attempts: nat): (r: Attempt)
    requires attempts <= MaxAttempts <= |events|
    ensures attempts <= r.polls <= MaxAttempts
    ensures r.polls == attempts <==> !InFlight(snap.status) || attempts == MaxAttempts
    decreases MaxAttempts - attempts
  {
    if !InFlight(snap.status) || attempts == MaxAttempts then
      Attempt(Final(snap), attempts)
    else
      match events[attempts]
      case Reply(code, body) =>
        if IsOk(code) then Poll(body, events, attempts + 1) else Attempt(None, attempts + 1)
      case _ => Attempt(None, attempts + 1)
  }

  /** The whole request: a submission that is not a 2xx reply fails at
      once. */
  function Call(create: Reply, events: seq<Reply>): (r: Attempt)
    requires MaxAttempts <= |events|
    ensures r.polls <= MaxAttempts
    ensures r.polls > 0 ==> create.Reply? && IsOk(create.code) && InFlight(create.body.status)
  {
    match create
    case Reply(code, body) => if IsOk(code) then Poll(body, events, 0) else Attempt(None, 0)
    case _ => Attempt(None, 0)
  }

  /** The request as the page runs it; `sent` lists the bodies posted to
      the relay, the submission first, then one status check per attempt
      for the id the submission returned. */
  method CallReplicate(systemPrompt: string, userPrompt: string, create: Reply, events: seq<Reply>)
    returns (output: Option<Output>, sent: seq<Js>)
    requires MaxAttempts <= |events|
    ensures |sent| >= 1 && sent[0] == CreationBody(systemPrompt + "\n" + userPrompt)
    ensures Call(create, events) == Attempt(output, |sent| - 1)
    ensures create.Reply? ==> forall i :: 1 <= i < |sent| ==> sent[i] == StatusBody(create.body.id)
  {
    sent := [CreationBody(systemPrompt + "\n" + userPrompt)];
    if !create.Reply? || !IsOk(create.code) {
      return None, sent;
    }
    var prediction := create.body;
    var current := prediction;
    var attempts: nat := 0;
    while InFlight(current.status) && attempts < MaxAttempts
      invariant attempts <= MaxAttempts
      invariant |sent| == attempts + 1 && sent[0] == CreationBody(systemPrompt + "\n" + userPrompt)
      invariant forall i :: 1 <= i < |sent| ==> sent[i] == StatusBody(prediction.id)
      invariant Poll(current, events, attempts) == Call(create, events)
    {
      attempts := attempts + 1;
      sent := sent + [StatusBody(prediction.id)];
      var reply := events[attempts - 1];
      if !reply.Reply? || !IsOk(reply.code) {
        return None, sent;
      }
      current := reply.body;
    }
    output := Final(current);
  }

  /** The failure detail App.tsx keeps is all this page drops: both loops
      make the same checks and end on the same output. */
  lemma {:induction false} PollCollapsesApp(snap: Snapshot, events: seq<Reply>, attempts: nat)
    requires attempts <= MaxAttempts <= |events|
    ensures var app := AppClient.Poll(snap, events, attempts);
            Poll(snap, events, attempts) == Attempt(if app.result.Ok? then Some(app.result.value) else None, app.polls)
    decreases MaxAttempts - attempts
  {
    if InFlight(snap.status) && attempts < MaxAttempts {
      var e := events[attempts];
      if e.Reply? && IsOk(e.code) {
        PollCollapsesApp(e.body, events, attempts + 1);
      }
    }
  }

  /** The same for the whole request. */
  lemma CallCollapsesApp(create: Reply, events: seq<Reply>)
    requires MaxAttempts <= |events|
    ensures var app := AppClient.Call(create, events);
            Call(create, events) == Attempt(if app.result.Ok? then Some(app.result.value) else None, app.polls)
  {
    if create.Reply? && IsOk(create.code) {
      PollCollapsesApp(create.body, events, 0);
    }
  }

  /** One card of this page: a name and its applications. */
  datatype Category = Category(name: Js, applications: seq<Application>)

  /** The card for one parsed category; `None` where the page throws. */
  function CategoryOf(cat: Js, now: int): (r: Option<Category>)
    ensures r.Some? <==> !IsNullish(cat) && Field(cat, "applications").Arr?
                         && ListedApps(Field(cat, "applications").items, Field(cat, "name"), now).Some?
    ensures r.Some? ==> r.value.name == Field(cat, "name")
                        && r.value.applications == ListedApps(Field(cat, "applications").items, Field(cat, "name"), now).value
  {
    if IsNullish(cat) then None
    else
      var name := Field(cat, "name");
      var apps := Field(cat, "applications");
      if !apps.Arr? then None
      else
        match ListedApps(apps.items, name, now)
        case None => None
        case Some(cards) => Some(Category(name, cards))
  }

  /** `aiResponse.categories.map(...)`. */
  function Transform(cats: seq<Js>, now: int): (r: Option<seq<Category>>)
    ensures r.Some? <==> forall i :: 0 <= i < |cats| ==> CategoryOf(cats[i], now).Some?
    ensures r.Some? ==> |r.value| == |cats|
    ensures r.Some? ==> forall i :: 0 <= i < |cats| ==> r.value[i] == CategoryOf(cats[i], now).value
  {
    if forall i :: 0 <= i < |cats| ==> CategoryOf(cats[i], now).Some? then
      Some(seq(|cats|, i requires 0 <= i < |cats| => CategoryOf(cats[i], now).value))
    else
      None
  }

  /** This page's transform accepts exactly the trees App.tsx's does and
      builds the same names and applications. */
  lemma TransformAgreesWithApp(cats: seq<Js>, now: int)
    ensures Transform(cats, now).Some? <==> AppView.Transform(cats, now).Some?
    ensures Transform(cats, now).Some? ==>
              forall i :: 0 <= i < |cats| ==>
                && Transform(cats, now).value[i].name == AppView.Transform(cats, now).value[i].name
                && Transform(cats, now).value[i].applications == AppView.Transform(cats, now).value[i].applications
  {
    assert forall i :: 0 <= i < |cats| ==> (CategoryOf(cats[i], now).Some? <==> AppView.CategoryOf(cats[i], now).Some?);
  }

  const FallbackExamples: seq<Js> := [
    Str("Automatyczne przekazywanie leadów między działami sprzedaży"),
    Str("Workflow zatwierdzania dokumentów z powiadomieniami"),
    Str("Automatyczne generowanie raportów okresowych"),
    Str("System przypomnień o terminach i deadlinach"),
    Str("Integracja między CRM a systemem marketingowym")]

  const FallbackName := "Automatyzacja Procesów"
  const FallbackDescription :=
    "Automatyzuje codzienne zadania i procesy biznesowe, optymalizuje przepływ pracy i eliminuje powtarzalne czynności."
  const FallbackPrompt :=
    "Jesteś ekspertem automatyzacji procesów biznesowych. Pomóż mi zoptymalizować mój workflow poprzez: 1) Identyfikację powtarzalnych zadań, 2) Zaprojektowanie automatycznych przepływów pracy, 3) Integrację z istniejącymi narzędziami, 4) Monitoring i optymalizację procesów, 5) Raportowanie efektywności automatyzacji."

  /** `generateSmartFallback`: the fixed category shown instead of an
      error. The job description is not consulted. */
  function SmartFallback(jobDescription: string): seq<Category> {
    [Category(Str(FallbackName), [
      Application("auto-1", Str("Workflow Manager AI"), Str(FallbackDescription), Str(FallbackName),
                  Str(FallbackPrompt), Arr(FallbackExamples), false)])]
  }

  /** The fallback is one category, "Automatyzacja Procesów", holding one
      application with five examples, whatever the job description. */
  lemma FallbackShape(jobDescription: string, other: string)
    ensures var r := SmartFallback(jobDescription);
            && |r| == 1 && r[0].name == Str(FallbackName)
            && |r[0].applications| == 1
            && r[0].applications[0].examples.Arr? && |r[0].applications[0].examples.items| == 5
            && r[0].applications[0].category == r[0].name
    ensures SmartFallback(jobDescription) == SmartFallback(other)
  {
  }

  /** The output text, or `None` where the page throws
      `INVALID_OUTPUT_FORMAT` or `EMPTY_OUTPUT`. */
  function OutputText(o: Output): (r: Option<string>)
    ensures r.Some? ==> Coerce(o) == r && Trim(r.value) != ""
    ensures r.None? ==> Coerce(o).None? || forall i :: 0 <= i < |Coerce(o).value| ==> IsWhiteSpace(Coerce(o).value[i])
  {
    match Coerce(o)
    case None => None
    case Some(text) =>
      TrimEmptyIff(text);
      if text == "" || Trim(text) == "" then None else Some(text)
  }

  /** The structure check and the transform of what `JSON.parse` gave:
      the cards, or `None` for a SyntaxError, a tree without a
      `categories` array or a TypeError in the transform. */
  function FromTree(parsed: Result<Js, string>, now: int): (r: Option<seq<Category>>)
    ensures parsed.Err? ==> r.None?
    ensures r.Some? ==> && parsed.Ok? && Field(parsed.value, "categories").Arr?
                        && Transform(Field(parsed.value, "categories").items, now) == r
    ensures parsed.Ok? && !Field(parsed.value, "categories").Arr? ==> r.None?
    ensures parsed.Ok? && Field(parsed.value, "categories").Arr? ==>
              r == Transform(Field(parsed.value, "categories").items, now)
  {
    if parsed.Err? then None
    else
      var response := parsed.value;
      var cats := Field(response, "categories");
      if !Truthy(response) || !Truthy(cats) || !cats.Arr? then None
      else Transform(cats.items, now)
  }

  /** The work after the request: the cards, or `None` for every path
      that ends in the fallback (a failed request, unusable output text,
      and the failures of `FromTree`). */
  function Generate(output: Option<Output>, parse: string -> Result<Js, string>, now: int): (r: Option<seq<Category>>)
    ensures output.None? ==> r.None?
    ensures output.Some? && OutputText(output.value).None? ==> r.None?
    ensures output.Some? && OutputText(output.value).Some? ==>
              r == FromTree(parse(Span(OutputText(output.value).value, {'{'}, {'}'})), now)
  {
    if output.None? then None
    else
      match OutputText(output.value)
      case None => None
      case Some(text) => FromTree(parse(Span(text, {'{'}, {'}'})), now)
  }

  /** The state the handler writes. */
  datatype View = View(results: seq<Category>, isLoading: bool, hasSearched: bool)

  /** `generateAIRecommendations` once the request has completed. */
  function Recommend(v: View, jobDescription: string, create: Reply, events: seq<Reply>,
                     parse: string -> Result<Js, string>, now: int): (r: View)
    requires MaxAttempts <= |events|
    ensures !r.isLoading && r.hasSearched
    ensures var g := Generate(Call(create, events).output, parse, now);
            r.results == if g.Some? then g.value else SmartFallback(jobDescription)
  {
    var generated := Generate(Call(create, events).output, parse, now);
    View(generated.GetOr(SmartFallback(jobDescription)), false, true)
  }

  /** A failed request never leaves the page empty: the only way to no
      cards is a well-formed tree with no categories. */
  lemma NoEmptyResultsOnFailure(v: View, jobDescription: string, create: Reply, events: seq<Reply>,
                                parse: string -> Result<Js, string>, now: int)
    requires MaxAttempts <= |events|
    ensures Recommend(v, jobDescription, create, events, parse, now).results == [] ==>
              Generate(Call(create, events).output, parse, now) == Some([])
  {
  }

  /** Every failure of the request, whatever App.tsx would have called
      it, gives the fallback. */
  lemma RequestFailureFallsBack(v: View, jobDescription: string, create: Reply, events: seq<Reply>,
                                parse: string -> Result<Js, string>, now: int)
    requires MaxAttempts <= |events|
    requires AppClient.Call(create, events).result.Err?
    ensures Recommend(v, jobDescription, create, events, parse, now).results == SmartFallback(jobDescription)
  {
    CallCollapsesApp(create, events);
  }

  /** Output of white space only gives the fallback. */
  lemma BlankOutputFallsBack(v: View, jobDescription: string, create: Reply, events: seq<Reply>,
                             parse: string -> Result<Js, string>, now: int, text: string)
    requires MaxAttempts <= |events|
    requires Call(create, events).output.Some? && Coerce(Call(create, events).output.value) == Some(text)
    requires forall i :: 0 <= i < |text| ==> IsWhiteSpace(text[i])
    ensures Recommend(v, jobDescription, create, events, parse, now).results == SmartFallback(jobDescription)
  {
    TrimEmptyIff(text);
  }

  /** Text `JSON.parse` rejects, or a tree without a `categories` array,
      gives the fallback. */
  lemma UnusableTreeFallsBack(v: View, jobDescription: string, create: Reply, events: seq<Reply>,
                              parse: string -> Result<Js, string>, now: int, text: string)
    requires MaxAttempts <= |events|
    requires Call(create, events).output.Some? && Coerce(Call(create, events).output.value) == Some(text)
    requires Trim(text) != ""
    requires var parsed := parse(Span(text, {'{'}, {'}'}));
             parsed.Err? || !Field(parsed.value, "categories").Arr?
    ensures Recommend(v, jobDescription, create, events, parse, now).results == SmartFallback(jobDescription)
  {
  }

  /** `handleSearch`: only a query with something besides white space
      starts a recommendation, which receives the query as typed. */
  function HandleSearch(v: View, query: string, create: Reply, events: seq<Reply>,
                        parse: string -> Result<Js, string>, now: int): (r: View)
    requires MaxAttempts <= |events|
    ensures (forall i :: 0 <= i < |query| ==> IsWhiteSpace(query[i])) ==> r == v
    ensures (exists i :: 0 <= i < |query| && !IsWhiteSpace(query[i])) ==>
              r == Recommend(v, query, create, events, parse, now)
  {
    TrimEmptyIff(query);
    if Trim(query) != "" then Recommend(v, query, create, events, parse, now) else v
  }
}

=== FILE: json.dfy ===
/** The JavaScript values the pages and the proxy inspect: what
    `JSON.parse` produces, plus `undefined` for a missing property.
    Numbers are integer-valued. */
module Json {
  import opened Base
  import opened Text

  datatype Js =
    | Undefined
    | Null
    | Bool(b: bool)
    | Num(n: int)
    | Str(s: string)
    | Arr(items: seq<Js>)
    | Obj(fields: map<string, Js>)

  /** JavaScript truthiness: `undefined`, `null`, `false`, `0` and `""` are
      falsy; every array and every object is truthy, empty or not. */
  predicate Truthy(v: Js) {
    match v
    case Undefined => false
    case Null => false
    case Bool(b) => b
    case Num(n) => n != 0
    case Str(s) => s != ""
    case Arr(_) => true
    case Obj(_) => true
  }

  predicate IsNullish(v: Js) {
    v.Undefined? || v.Null?
  }

  /** Reading `v[key]`: `None` when `v` is `null` or `undefined` (the read
      throws a TypeError), `undefined` for a key an object lacks and for
      every key of a primitive or an array (the keys used here are no
      built-in properties). */
  function Get(v: Js, key: string): (r: Option<Js>)
    ensures r.None? <==> IsNullish(v)
    ensures r.Some? && r.value != Undefined ==> v.Obj? && key in v.fields && v.fields[key] == r.value
    ensures v.Obj? && key in v.fields ==> r == Some(v.fields[key])
    ensures !IsNullish(v) && !(v.Obj? && key in v.fields) ==> r == Some(Undefined)
  {
    match v
    case Undefined => None
    case Null => None
    case Obj(fields) => Some(if key in fields then fields[key] else Undefined)
    case _ => Some(Undefined)
  }

  /** `v[key]` where `v` is known to be an object-like value; `undefined`
      when the read would fail. */
  function Field(v: Js, key: string): Js {
    Get(v, key).GetOr(Undefined)
  }

  /** `a || b`: one of the operands, truthy exactly when either is; `a`
      itself whenever `a` is truthy, and `b` otherwise. */
  function Or(a: Js, b: Js): (r: Js)
    ensures r == a || r == b
    ensures Truthy(r) <==> Truthy(a) || Truthy(b)
    ensures Truthy(a) ==> r == a
    ensures !Truthy(a) ==> r == b
  {
    if Truthy(a) then a else b
  }

  /** `String(v)`, which template literals use: arrays are joined with ","
      and their `null` and `undefined` elements become empty. */
  function ToString(v: Js): (r: string)
    ensures v.Str? ==> r == v.s
    decreases v, 1, 0
  {
    match v
    case Undefined => "undefined"
    case Null => "null"
    case Bool(b) => if b then "true" else "false"
    case Num(n) => IntToString(n)
    case Str(s) => s
    case Arr(items) => JoinFrom(v, 0)
    case Obj(_) => "[object Object]"
  }

  /** The elements `i..` of the array `v`, each as `join` writes it,
      separated by ",". */
  function JoinFrom(v: Js, i: nat): string
    requires v.Arr? && i <= |v.items|
    decreases v, 0, |v.items| - i
  {
    if i == |v.items| then ""
    else
      var e := v.items[i];
      var head := if IsNullish(e) then "" else ToString(e);
      if i + 1 == |v.items| then head else head + "," + JoinFrom(v, i + 1)
  }

  /** The message V8 gives the TypeError of reading `key` from `null` or
      `undefined`. */
  function ReadErrorMessage(v: Js, key: string): string
    requires IsNullish(v)
  {
    "Cannot read properties of " + ToString(v) + " (reading '" + key + "')"
  }
}

=== FILE: prediction.dfy ===
/** What both pages share about one prediction job: the snapshot the
    client polls, the replies the relay gives it, the tagged union of the
    model's raw output and how it is coerced to text, the request bodies
    the client sends, and the application record built from parsed
    output. */
module Prediction {
  import opened Base
  import opened Text
  import opened Json

  /** The ceiling on status checks, `maxAttempts`. */
  const MaxAttempts: nat := 120

  /** `REPLICATE_VERSION`, the model the job runs on. */
  const ModelVersion := "openai/gpt-4.1-mini"

  /** The raw `output` of a prediction. `Fields` is an object that is not
      an array, with its `content` and `text` string fields ("" where the
      field is absent); `Other` is `null`, `undefined`, a number or a
      boolean, with its truthiness. */
  datatype Output =
    | Text(s: string)
    | Chunks(parts: seq<string>)
    | Fields(content: string, text: string)
    | Other(truthy: bool)

  /** `!!output`: an empty string is falsy, every array and object truthy. */
  predicate OutputTruthy(o: Output) {
    match o
    case Text(s) => s != ""
    case Chunks(_) => true
    case Fields(_, _) => true
    case Other(t) => t
  }

  /** The chain of type tests that turns the output into text: a string as
      it is, an array joined with '', an object's truthy `content` before
      its `text`; `None` for every other shape. */
  function Coerce(o: Output): (r: Option<string>)
    ensures r.None? <==> o.Other? || (o.Fields? && o.content == "" && o.text == "")
    ensures o.Fields? && o.content != "" ==> r == Some(o.content)
    ensures o.Fields? && o.content == "" && o.text != "" ==> r == Some(o.text)
    ensures o.Chunks? ==> r == Some(Concat(o.parts))
    ensures o.Text? ==> r == Some(o.s)
  {
    match o
    case Text(s) => Some(s)
    case Chunks(parts) => Some(Concat(parts))
    case Fields(content, text) =>
      if content != "" then Some(content) else if text != "" then Some(text) else None
    case Other(_) => None
  }

  /** The text of `output.join('')` is the chunks before `k`, then chunk
      `k`, then the chunks after it. */
  lemma {:induction false} ChunksJoinedInOrder(parts: seq<string>, k: nat)
    requires k < |parts|
    ensures Concat(parts) == Concat(parts[..k]) + parts[k] + Concat(parts[k + 1..])
  {
    if k > 0 {
      var tail := parts[1..];
      ChunksJoinedInOrder(tail, k - 1);
      assert tail[..k - 1] == parts[1..k] && tail[k - 1] == parts[k] && tail[k..] == parts[k + 1..];
      assert parts[..k][0] == parts[0] && parts[..k][1..] == parts[1..k];
    }
  }

  /** One snapshot of the job. A missing or non-string `status` behaves as
      any string other than the five names; a missing `id` as "". */
  datatype Snapshot = Snapshot(id: string, status: string, output: Output)

  /** The two in-flight statuses the poll loop waits on. */
  predicate InFlight(status: string) {
    status == "starting" || status == "processing"
  }

  /** `response.ok`: a 2xx status. */
  predicate IsOk(code: int) {
    200 <= code <= 299
  }

  /** What one call to the relay yields: a response with its status code
      and parsed body, an abort by the call's timeout controller, or any
      other thrown error with its message: a network failure, a body that
      is not JSON, or a 2xx body of `null`, whose `id` or `status` read
      throws a TypeError in App.tsx. */
  datatype Reply = Reply(code: int, body: Snapshot) | Aborted | Raised(message: string)

  /** `{ version, input: { prompt } }`, the body that submits a job. */
  function CreationBody(prompt: string): Js {
    Obj(map["version" := Str(ModelVersion), "input" := Obj(map["prompt" := Str(prompt)])])
  }

  /** `{ id }`, the body of one status check. */
  function StatusBody(id: string): Js {
    Obj(map["id" := Str(id)])
  }

  /** One card. Fields read from parsed output keep whatever value they
      had, `undefined` included; `isGenerated` is set only on cards added
      by "generate more". */
  datatype Application = Application(
    id: string,
    title: Js,
    description: Js,
    category: Js,
    prompt: Js,
    examples: Js,
    isGenerated: bool)

  /** `app.examples || []`. */
  function ExamplesOrEmpty(examples: Js): (r: Js)
    ensures Truthy(r)
    ensures Truthy(examples) ==> r == examples
    ensures !Truthy(examples) ==> r == Arr([])
  {
    Or(examples, Arr([]))
  }

  /** `${name}-${index}-${now}`, the identifier of a listed card. */
  function ListedId(category: Js, index: nat, now: int): string {
    ToString(category) + "-" + NatToString(index) + "-" + IntToString(now)
  }

  /** The card built from `app`, the `index`-th application of `category`. */
  function ListedApp(app: Js, category: Js, index: nat, now: int): Application {
    Application(ListedId(category, index, now), Field(app, "title"), Field(app, "description"),
                category, Field(app, "prompt"), ExamplesOrEmpty(Field(app, "examples")), false)
  }

  /** `category.applications.map(...)` as both pages write it: `None` when
      an application is `null` (reading its `title` throws), otherwise one
      card per application, in order. */
  function ListedApps(apps: seq<Js>, category: Js, now: int): (r: Option<seq<Application>>)
    ensures r.Some? <==> forall i :: 0 <= i < |apps| ==> !IsNullish(apps[i])
    ensures r.Some? ==> |r.value| == |apps|
    ensures r.Some? ==> forall i :: 0 <= i < |apps| ==>
                          && r.value[i].title == Field(apps[i], "title")
                          && r.value[i].description == Field(apps[i], "description")
                          && r.value[i].prompt == Field(apps[i], "prompt")
                          && r.value[i].category == category
                          && r.value[i].id == ListedId(category, i, now)
                          && r.value[i].examples == ExamplesOrEmpty(Field(apps[i], "examples"))
                          && !r.value[i].isGenerated
  {
    if forall i :: 0 <= i < |apps| ==> !IsNullish(apps[i]) then
      Some(seq(|apps|, i requires 0 <= i < |apps| => ListedApp(apps[i], category, i, now)))
    else
      None
  }
}

=== FILE: replicate_proxy.dfy ===
/** The server relay of pages/api/replicate.ts. It holds the secret key
    and forwards two request shapes to the hosted-inference API. The relay
    is stateless and answers once per request, so it becomes a routing
    decision (`Dispatch`: answer at once, or the upstream request to issue)
    and a completion (`Finish`: what the upstream answer or a thrown error
    becomes). The environment is a parameter. */
module ReplicateProxy {
  import opened Base
  import opened Json

  const PredictionsUrl := "https://api.replicate.com/v1/predictions"
  const KeyName := "REPLICATE_API_KEY"
  const TokenName := "REPLICATE_API_TOKEN"
  const KeyMissingMessage :=
    "Replicate API key not set in environment variables (REPLICATE_API_KEY or REPLICATE_API_TOKEN)"

  /** The process environment; an unset variable reads as "". */
  type Env = map<string, string>

  function EnvVar(env: Env, name: string): string {
    if name in env then env[name] else ""
  }

  /** `REPLICATE_API_KEY || REPLICATE_API_TOKEN`: the key wins when set. */
  function ApiKey(env: Env): (k: string)
    ensures EnvVar(env, KeyName) != "" ==> k == EnvVar(env, KeyName)
    ensures EnvVar(env, KeyName) == "" ==> k == EnvVar(env, TokenName)
    ensures k == "" <==> EnvVar(env, KeyName) == "" && EnvVar(env, TokenName) == ""
  {
    if EnvVar(env, KeyName) != "" then EnvVar(env, KeyName) else EnvVar(env, TokenName)
  }

  /** An HTTP request the relay sends upstream. */
  datatype Upstream = Upstream(verb: string, url: string, headers: seq<(string, string)>, body: Option<Js>)

  datatype Response = Response(status: int, body: Js)

  datatype Route = Respond(response: Response) | Forward(request: Upstream)

  /** What the upstream call yields: its status and parsed JSON body, or an
      error thrown by `fetch` or by `response.json()`. */
  datatype UpstreamReply = Answer(status: int, data: Js) | Throws(name: string, message: string)

  function Headers(key: string): seq<(string, string)> {
    [("Authorization", "Token " + key), ("Content-Type", "application/json")]
  }

  function ErrorBody(message: string): Js {
    Obj(map["error" := Str(message)])
  }

  /** `{ error: 'Replicate API error', details }` of the catch clause. */
  function FailureBody(details: string): Js {
    Obj(map["error" := Str("Replicate API error"), "details" := Str(details)])
  }

  /** `error?.message || String(error)`: an Error with an empty message
      prints as its name. */
  function Details(name: string, message: string): string {
    if message != "" then message else name
  }

  function CreateRequest(key: string, body: Js): Upstream {
    Upstream("POST", PredictionsUrl, Headers(key), Some(body))
  }

  function StatusRequest(key: string, id: Js): Upstream {
    Upstream("GET", PredictionsUrl + "/" + ToString(id), Headers(key), None)
  }

  /** The decision the handler takes before any upstream call. */
  function Dispatch(verb: string, env: Env, body: Js): (r: Route)
    ensures r.Forward? ==> verb == "POST" && ApiKey(env) != "" && !IsNullish(body)
    ensures r.Forward? ==>
              |r.request.headers| > 0 && r.request.headers[0] == ("Authorization", "Token " + ApiKey(env))
    ensures r.Forward? ==> (r.request.verb == "POST" <==> r.request.body == Some(body))
    ensures r.Forward? ==>
              r.request == CreateRequest(ApiKey(env), body) || r.request == StatusRequest(ApiKey(env), Field(body, "id"))
    ensures r.Respond? ==> r.response.status == 405 || r.response.status == 500 || r.response.status == 400
  {
    if verb != "POST" then
      Respond(Response(405, ErrorBody("Method not allowed")))
    else
      var key := ApiKey(env);
      if key == "" then
        Respond(Response(500, ErrorBody(KeyMissingMessage)))
      else
        match Get(body, "version")
        case None =>
          Respond(Response(500, FailureBody(ReadErrorMessage(body, "version"))))
        case Some(version) =>
          if Truthy(version) && Truthy(Field(body, "input")) then
            Forward(CreateRequest(key, body))
          else if Truthy(Field(body, "id")) then
            Forward(StatusRequest(key, Field(body, "id")))
          else
            Respond(Response(400, ErrorBody("Invalid request body")))
  }

  /** The response once the upstream call, if any, has completed. */
  function Finish(route: Route, reply: UpstreamReply): (r: Response)
    ensures route.Respond? ==> r == route.response
    ensures route.Forward? && reply.Answer? ==> r == Response(reply.status, reply.data)
    ensures route.Forward? && reply.Throws? ==> r.status == 500
  {
    match route
    case Respond(response) => response
    case Forward(_) =>
      match reply
      case Answer(status, data) => Response(status, data)
      case Throws(name, message) => Response(500, FailureBody(Details(name, message)))
  }

  /** The whole handler; `reply` is what the upstream call would yield and
      is consulted only when the route forwards. */
  function Handle(verb: string, env: Env, body: Js, reply: UpstreamReply): Response {
    Finish(Dispatch(verb, env, body), reply)
  }

  /** Any verb but POST gets 405, whatever the upstream would say. */
  lemma NonPostRejected(verb: string, env: Env, body: Js, reply: UpstreamReply)
    requires verb != "POST"
    ensures Dispatch(verb, env, body).Respond?
    ensures Handle(verb, env, body, reply) == Response(405, ErrorBody("Method not allowed"))
  {
  }

  /** Without either variable the answer is 500 and nothing is forwarded. */
  lemma MissingKeyRejected(env: Env, body: Js, reply: UpstreamReply)
    requires EnvVar(env, KeyName) == "" && EnvVar(env, TokenName) == ""
    ensures Dispatch("POST", env, body).Respond?
    ensures Handle("POST", env, body, reply) == Response(500, ErrorBody(KeyMissingMessage))
  {
  }

  /** A body with truthy `version` and `input` is forwarded unchanged to the
      creation endpoint, whatever its `id`. */
  lemma CreationForwarded(env: Env, body: Js)
    requires ApiKey(env) != "" && body.Obj?
    requires Truthy(Field(body, "version")) && Truthy(Field(body, "input"))
    ensures Dispatch("POST", env, body) == Forward(CreateRequest(ApiKey(env), body))
  {
  }

  /** Otherwise a truthy `id` becomes a GET of that prediction's status. */
  lemma StatusForwarded(env: Env, body: Js)
    requires ApiKey(env) != "" && body.Obj?
    requires !(Truthy(Field(body, "version")) && Truthy(Field(body, "input")))
    requires Truthy(Field(body, "id"))
    ensures Dispatch("POST", env, body) == Forward(StatusRequest(ApiKey(env), Field(body, "id")))
  {
  }

  /** A body of neither shape gets 400. */
  lemma ShapelessBodyRejected(env: Env, body: Js, reply: UpstreamReply)
    requires ApiKey(env) != "" && !IsNullish(body)
    requires !(Truthy(Field(body, "version")) && Truthy(Field(body, "input")))
    requires !Truthy(Field(body, "id"))
    ensures Handle("POST", env, body, reply) == Response(400, ErrorBody("Invalid request body"))
  {
  }

  /** A missing body makes the first read throw: 500 with the details. */
  lemma NullishBodyFails(env: Env, body: Js, reply: UpstreamReply)
    requires ApiKey(env) != "" && IsNullish(body)
    ensures Handle("POST", env, body, reply).status == 500
    ensures Dispatch("POST", env, body).Respond?
  {
  }

  /** The upstream status and JSON come back unchanged; a thrown upstream
      error becomes 500 with `{error, details}`. */
  lemma UpstreamPassedThrough(verb: string, env: Env, body: Js, reply: UpstreamReply)
    requires Dispatch(verb, env, body).Forward?
    ensures reply.Answer? ==> Handle(verb, env, body, reply) == Response(reply.status, reply.data)
    ensures reply.Throws? ==>
      Handle(verb, env, body, reply) == Response(500, FailureBody(Details(reply.name, reply.message)))
  {
  }
}

=== FILE: scenario.dfy ===
/** A complete request on both pages: the job is submitted while
    `processing`, the first check still sees it `processing`, the second
    sees it `succeeded` with output `json`, the text of a bare JSON object
    (no backtick, nothing before `{` or after `}`) that `JSON.parse` reads
    as one category, "Marketing", with one application, "X". */
module Scenario {
  import opened Base
  import opened Json
  import opened Prediction
  import opened AppOutput
  import AppClient
  import AppView
  import IndexPage

  const MarketingApp: Js :=
    Obj(map["title" := Str("X"), "description" := Str("Y"), "prompt" := Str("Z"), "examples" := Arr([Str("a")])])

  const MarketingCategory: Js := Obj(map["name" := Str("Marketing"), "applications" := Arr([MarketingApp])])

  /** What `JSON.parse` makes of the text. */
  const MarketingTree: Js := Obj(map["categories" := Arr([MarketingCategory])])

  const Submitted := Snapshot("p1", "processing", Other(false))

  /** The text of a bare JSON object. */
  predicate BareObject(json: string) {
    && |json| >= 2 && json[0] == '{' && json[|json| - 1] == '}'
    && forall i :: 0 <= i < |json| ==> json[i] != '`'
  }

  /** The replies of the two checks. */
  predicate Scripted(events: seq<Reply>, json: string) {
    && MaxAttempts <= |events|
    && events[0] == Reply(200, Submitted)
    && events[1] == Reply(200, Snapshot("p1", "succeeded", Output.Text(json)))
  }

  /** The request returns the text after two checks. */
  lemma ScenarioRequest(events: seq<Reply>, json: string)
    requires Scripted(events, json) && json != ""
    ensures AppClient.Call(Reply(201, Submitted), events) == AppClient.Outcome(Ok(Output.Text(json)), 2)
  {
    AppClient.SucceedsAfterChecks(Submitted, 201, events, 1, Output.Text(json));
  }

  /** The text needs no cleaning and is parsed whole by either page. */
  lemma ScenarioText(json: string)
    requires BareObject(json)
    ensures JsonText(json) == json
    ensures Span(json, {'{'}, {'}'}) == json
  {
    BareObjectPassesThrough(json);
    WholeSpan(json, {'{'}, {'}'});
  }

  /** App.tsx's transform of the tree. */
  lemma AppCards(now: int)
    ensures var t := AppView.Transform([MarketingCategory], now);
            && t.Some? && |t.value| == 1 && t.value[0].name == Str("Marketing")
            && |t.value[0].applications| == 1
            && t.value[0].applications[0].title == Str("X")
            && t.value[0].applications[0].examples == Arr([Str("a")])
  {
    assert Field(MarketingCategory, "applications") == Arr([MarketingApp]);
    assert Field(MarketingCategory, "name") == Str("Marketing");
    assert ListedApps([MarketingApp], Str("Marketing"), now).Some?;
    assert AppView.CategoryOf(MarketingCategory, now).Some?;
    assert Field(MarketingApp, "title") == Str("X");
    assert Field(MarketingApp, "examples") == Arr([Str("a")]);
  }

  /** pages/index.tsx's transform of the tree. */
  lemma IndexCards(now: int)
    ensures var t := IndexPage.Transform([MarketingCategory], now);
            && t.Some? && |t.value| == 1 && t.value[0].name == Str("Marketing")
            && |t.value[0].applications| == 1
            && t.value[0].applications[0].title == Str("X")
  {
    assert Field(MarketingCategory, "applications") == Arr([MarketingApp]);
    assert Field(MarketingCategory, "name") == Str("Marketing");
    assert ListedApps([MarketingApp], Str("Marketing"), now).Some?;
    assert IndexPage.CategoryOf(MarketingCategory, now).Some?;
    assert Field(MarketingApp, "title") == Str("X");
  }

  /** App.tsx ends with one card, "Marketing", holding one application,
      "X", and no banner. */
  lemma AppScenario(v: AppView.View, events: seq<Reply>, json: string, parse: string -> Result<Js, string>, now: int)
    requires Scripted(events, json) && BareObject(json)
    requires parse(json) == Ok(MarketingTree)
    ensures var r := AppView.Recommend(v, Reply(201, Submitted), events, parse, now);
            && r.apiError.None? && |r.results| == 1
            && r.results[0].name == Str("Marketing")
            && |r.results[0].applications| == 1
            && r.results[0].applications[0].title == Str("X")
            && r.results[0].applications[0].examples == Arr([Str("a")])
  {
    ScenarioRequest(events, json);
    ScenarioText(json);
    AppCards(now);
    AppView.ParsedOutputBecomesCards(v, Reply(201, Submitted), events, parse, now, json, [MarketingCategory]);
  }

  /** pages/index.tsx reads the whole text and transforms the tree. */
  lemma IndexGenerates(json: string, parse: string -> Result<Js, string>, now: int)
    requires BareObject(json) && parse(json) == Ok(MarketingTree)
    ensures IndexPage.Generate(Some(Output.Text(json)), parse, now) == IndexPage.Transform([MarketingCategory], now)
  {
    WholeSpan(json, {'{'}, {'}'});
    BareObjectIsText(json);
    IndexTree(now);
  }

  /** The tree passes this page's structure check. */
  lemma IndexTree(now: int)
    ensures IndexPage.FromTree(Ok(MarketingTree), now) == IndexPage.Transform([MarketingCategory], now)
  {
    assert Field(MarketingTree, "categories") == Arr([MarketingCategory]);
  }

  /** The text is not blank, so pages/index.tsx keeps it. */
  lemma BareObjectIsText(json: string)
    requires BareObject(json)
    ensures IndexPage.OutputText(Output.Text(json)) == Some(json)
  {
    Text.TrimEmptyIff(json);
    assert !Text.IsWhiteSpace(json[0]);
  }

  /** pages/index.tsx ends with the same card instead of its fallback. */
  lemma IndexScenario(v: IndexPage.View, jobDescription: string, events: seq<Reply>, json: string,
                      parse: string -> Result<Js, string>, now: int)
    requires Scripted(events, json) && BareObject(json)
    requires parse(json) == Ok(MarketingTree)
    ensures var r := IndexPage.Recommend(v, jobDescription, Reply(201, Submitted), events, parse, now);
            && |r.results| == 1
            && r.results[0].name == Str("Marketing")
            && |r.results[0].applications| == 1
            && r.results[0].applications[0].title == Str("X")
  {
    ScenarioRequest(events, json);
    IndexPage.CallCollapsesApp(Reply(201, Submitted), events);
    IndexGenerates(json, parse, now);
    IndexCards(now);
  }
}

=== FILE: text.dfy ===
/** The few JavaScript string operations the pages rely on: `trim`,
    `includes`, the decimal form of an integer, `join('')` and
    `toLowerCase`, all on `seq<char>`. */
module Text {

  /** ECMAScript WhiteSpace and LineTerminator code points, the set that
      `String.prototype.trim` removes. */
  predicate IsWhiteSpace(c: char) {
    || c == '\t' || c == '\n' || c == '\U{000B}' || c == '\U{000C}' || c == '\r'
    || c == ' ' || c == '\U{00A0}' || c == '\U{1680}'
    || ('\U{2000}' <= c <= '\U{200A}')
    || c == '\U{2028}' || c == '\U{2029}' || c == '\U{202F}' || c == '\U{205F}'
    || c == '\U{3000}' || c == '\U{FEFF}'
  }

  /** The characters a regular-expression `.` refuses to match. */
  predicate IsLineTerminator(c: char) {
    c == '\n' || c == '\r' || c == '\U{2028}' || c == '\U{2029}'
  }

  /** The first position at or after `i` that does not hold white space
      (`|s|` when there is none). */
  function SkipWhiteSpace(s: string, i: int): (n: int)
    requires 0 <= i <= |s|
    ensures i <= n <= |s| && (n == |s| || !IsWhiteSpace(s[n]))
    ensures forall k :: i <= k < n ==> IsWhiteSpace(s[k])
    decreases |s| - i
  {
    if i < |s| && IsWhiteSpace(s[i]) then SkipWhiteSpace(s, i + 1) else i
  }

  /** The end of `s[lo..j]` once its trailing white space is dropped. */
  function BackOverWhiteSpace(s: string, lo: int, j: int): (n: int)
    requires 0 <= lo <= j <= |s|
    ensures lo <= n <= j && (n == lo || !IsWhiteSpace(s[n - 1]))
    ensures forall k :: n <= k < j ==> IsWhiteSpace(s[k])
    decreases j - lo
  {
    if lo < j && IsWhiteSpace(s[j - 1]) then BackOverWhiteSpace(s, lo, j - 1) else j
  }

  /** Where `s.trim()` starts in `s`. */
  function TrimStart(s: string): (a: nat)
    ensures a <= |s|
  {
    SkipWhiteSpace(s, 0)
  }

  /** `s.trim()`: the slice of `s` between its leading and its trailing white
      space, which starts and ends with a character that is not white space. */
  function Trim(s: string): (r: string)
    ensures TrimStart(s) + |r| <= |s| && r == s[TrimStart(s)..TrimStart(s) + |r|]
    ensures forall k :: 0 <= k < TrimStart(s) ==> IsWhiteSpace(s[k])
    ensures forall k :: TrimStart(s) + |r| <= k < |s| ==> IsWhiteSpace(s[k])
    ensures r == [] || (!IsWhiteSpace(r[0]) && !IsWhiteSpace(r[|r| - 1]))
    ensures s != [] && !IsWhiteSpace(s[|s| - 1]) ==> r != [] && r[|r| - 1] == s[|s| - 1]
  {
    var a := TrimStart(s);
    s[a..BackOverWhiteSpace(s, a, |s|)]
  }

  /** Text with no white space at either end is its own trim. */
  lemma TrimKeepsTrimmed(s: string)
    requires s != [] && !IsWhiteSpace(s[0]) && !IsWhiteSpace(s[|s| - 1])
    ensures Trim(s) == s
  {
  }

  /** `s.trim().length === 0` holds exactly when every character of `s` is
      white space. */
  lemma {:induction false} TrimEmptyIff(s: string)
    ensures Trim(s) == [] <==> forall i :: 0 <= i < |s| ==> IsWhiteSpace(s[i])
  {
  }

  /** `s.includes(w)`. */
  predicate Contains(s: string, w: string) {
    exists i :: 0 <= i <= |s| - |w| && OccursAt(s, w, i)
  }

  predicate OccursAt(s: string, w: string, i: int) {
    0 <= i && i + |w| <= |s| && s[i..i + |w|] == w
  }

  /** A string that lacks the first character of `w` cannot contain `w`. */
  lemma NoHeadNoContains(s: string, w: string)
    requires w != []
    requires forall i :: 0 <= i < |s| ==> s[i] != w[0]
    ensures !Contains(s, w)
  {
    forall i | 0 <= i <= |s| - |w|
      ensures !OccursAt(s, w, i)
    {
      assert s[i] == s[i..i + |w|][0];
    }
  }

  predicate IsDigitChar(c: char) { '0' <= c <= '9' }

  /** The value of a run of decimal digits, most significant first. */
  function DecimalValue(s: string): nat
    requires forall i :: 0 <= i < |s| ==> IsDigitChar(s[i])
  {
    if s == [] then 0
    else
      assert IsDigitChar(s[|s| - 1]);
      DecimalValue(s[..|s| - 1]) * 10 + (s[|s| - 1] as int - '0' as int)
  }

  /** The number a numeral written by `IntToString` denotes. */
  function NumeralValue(s: string): int
    requires s != [] && forall i :: 0 <= i < |s| ==> IsDigitChar(s[i]) || s[i] == '-'
    requires forall i :: 1 <= i < |s| ==> IsDigitChar(s[i])
  {
    if s[0] == '-' then -(DecimalValue(s[1..]) as int) else DecimalValue(s)
  }

  /** The decimal numeral of a natural number, as `String(n)` writes it:
      digits only, denoting `n`. */
  function NatToString(n: nat): (r: string)
    ensures r != []
    ensures forall i :: 0 <= i < |r| ==> IsDigitChar(r[i])
    ensures DecimalValue(r) == n
    ensures r[0] == '0' ==> r == "0"
  {
    var d := ['0' + (n % 10) as char];
    if n < 10 then d
    else
      var r := NatToString(n / 10) + d;
      assert r[..|r| - 1] == NatToString(n / 10);
      r
  }

  /** `String(i)` for an integer-valued number: a minus sign exactly for
      a negative number, then digits without a leading zero (but for "0"
      itself), denoting `i`; so distinct numbers get distinct numerals. */
  function IntToString(i: int): (r: string)
    ensures r != []
    ensures forall k :: 0 <= k < |r| ==> IsDigitChar(r[k]) || r[k] == '-'
    ensures forall k :: 1 <= k < |r| ==> IsDigitChar(r[k])
    ensures NumeralValue(r) == i
    ensures r[0] == '-' <==> i < 0
    ensures r[0] == '0' ==> r == "0"
    ensures r[0] == '-' ==> |r| > 1 && r[1] != '0'
  {
    if i < 0 then
      var r := "-" + NatToString(-i);
      assert r[1..] == NatToString(-i);
      r
    else NatToString(i)
  }

  /** Different numbers have different numerals. */
  lemma IntToStringInjective(i: int, j: int)
    requires IntToString(i) == IntToString(j)
    ensures i == j
  {
    assert NumeralValue(IntToString(i)) == NumeralValue(IntToString(j));
  }

  /** `parts.join('')`. */
  function Concat(parts: seq<string>): (r: string)
    ensures |parts| == 1 ==> r == parts[0]
  {
    if parts == [] then "" else parts[0] + Concat(parts[1..])
  }

  /** `toLowerCase` on one character: ASCII letters and the nine Polish
      capitals; every other character is left as it is. */
  function LowerChar(c: char): char {
    if 'A' <= c <= 'Z' then (c as int + 32) as char
    else if c == 'Ą' then 'ą'
    else if c == 'Ć' then 'ć'
    else if c == 'Ę' then 'ę'
    else if c == 'Ł' then 'ł'
    else if c == 'Ń' then 'ń'
    else if c == 'Ó' then 'ó'
    else if c == 'Ś' then 'ś'
    else if c == 'Ź' then 'ź'
    else if c == 'Ż' then 'ż'
    else c
  }

  /** The capitals `LowerChar` folds. */
  predicate IsUpper(c: char) {
    ('A' <= c <= 'Z') || c in {'Ą', 'Ć', 'Ę', 'Ł', 'Ń', 'Ó', 'Ś', 'Ź', 'Ż'}
  }

  /** The capital each lower-case letter `LowerChar` produces comes from;
      every other character is left as it is. */
  function UpperChar(c: char): char {
    if 'a' <= c <= 'z' then (c as int - 32) as char
    else if c == 'ą' then 'Ą'
    else if c == 'ć' then 'Ć'
    else if c == 'ę' then 'Ę'
    else if c == 'ł' then 'Ł'
    else if c == 'ń' then 'Ń'
    else if c == 'ó' then 'Ó'
    else if c == 'ś' then 'Ś'
    else if c == 'ź' then 'Ź'
    else if c == 'ż' then 'Ż'
    else c
  }

  /** `s.toLowerCase()`: same length, no capital left, every character
      that is not a capital kept in place, and every capital replaced by
      its own lower-case letter, which `UpperChar` maps back. */
  function ToLower(s: string): (r: string)
    ensures |r| == |s|
    ensures forall i :: 0 <= i < |r| ==> !IsUpper(r[i])
    ensures forall i :: 0 <= i < |s| && !IsUpper(s[i]) ==> r[i] == s[i]
    ensures forall i :: 0 <= i < |s| && IsUpper(s[i]) ==> r[i] != s[i] && UpperChar(r[i]) == s[i]
  {
    seq(|s|, i requires 0 <= i < |s| => LowerChar(s[i]))
  }

  /** Lower-casing twice is lower-casing once. */
  lemma ToLowerIdempotent(s: string)
    ensures ToLower(ToLower(s)) == ToLower(s)
  {
  }
}
